=== FILE: README.md ===
# mock_gen, modelled in Dafny

`mock_gen` is the code generator of gomock (`cmd/mock_gen/main.go`). It
takes Go source text that declares interfaces. For every interface it
finds, it writes a testify mock: a struct embedding `mock.Mock` and one
method per interface method. Each method forwards its arguments to
`m.Called` and returns the recorded values cast to the declared result
types.

The model covers the generator from the parsed declarations to the
generated text:

- **Rendering types and lists** (module `Signature`). `getTypeName`,
  `getFunctionSignature` and `getParameters` render types and parameter or
  result lists.
- **Re-reading the text** (module `Signature`). `getArgumentNames`,
  `getReturnNames` and `getTypeNameFromString` cut the rendered text apart
  again to find the names forwarded to `m.Called` and the values to return.
- **Building the mocks** (module `Assembler`). `getMethodsFromInterface`
  builds the code of each method. The declaration walk of `interfaceToMock`
  visits every declaration, spec and struct field, and collects one mock per
  interface type and per interface-typed struct field.
- **The template** (module `Renderer`). `mockTemplate` lays out the mocks,
  and `interfaceToMock` chains the parser's result, the walk and the
  template.

The other modules are supporting parts:

- `Wrappers`: an `Option` type and two sequence combinators, `MapAll` and
  `FlatMap`.
- `GoStrings`: Go's `strings.Split`, `strings.Join`, `strings.Fields`,
  `unicode.IsSpace` and the `%d` verb.
- `GoAst`: the fragment of `go/ast` the generator reads.
- `Scenarios`: the cases of `cmd/mock_gen/main_test.go`, stated over any
  names and types of the same shape.

Go runtime panics end generation. These are the panics the model covers:

- `parts[0]` in `getArgumentNames` (`cmd/mock_gen/main.go:191`) on a piece
  of the parameter text that has no field;
- `parts[len(parts)-1]` in `getTypeNameFromString`
  (`cmd/mock_gen/main.go:232`) on a piece of the result text that has no
  field;
- `Names[0]` on an interface-typed struct field without a name
  (`cmd/mock_gen/main.go:118`) and on a method entry without a name, such
  as an embedded interface (`cmd/mock_gen/main.go:148`). The Go parser
  rejects an unnamed inline-interface struct field, so the struct case
  is reached only from a tree built by other means;
- the `*ast.FuncType` type assertion on a method entry that is not a
  function (`cmd/mock_gen/main.go:149-150`). This guards a shape the Go
  parser never produces: it gives every named interface method a function
  type, and an embedded interface has no name, so it panics at `Names[0]`
  first. The model still handles the shape for any tree it is given.

The model returns `None` for these, and `interfaceToMock` returns
`Panicked`. No operation has a precondition that rules them out. The nil
identifier in `getTypeName` (`cmd/mock_gen/main.go:201-203`) is the one
panic left out; see below.

The code has three behaviours that the model keeps as written:

- A function type renders its parameter and result lists inside one pair
  of parentheses: `func(a int, error)`.
- `func() error` renders as `func(, error)`.
- A method with no parameters or no results panics. The empty list
  renders as `""`, and `strings.Fields("")` has no element 0 (and no last
  element).

The loops of the source are methods with loop invariants:

- `GetParameters`, `GetArgumentNames` and `GetReturnNames`;
- `GetMethodsFromInterface`;
- the three nested loops of the walk: `CollectMocks`, `CollectSpecMocks`
  and `CollectFieldMocks`.

Each method is proved equal to a function (`Parameters`, `ArgumentNames`,
`ReturnNames`, `MethodCodes`, `BuildMocks(TargetsOf…)`), and the lemmas
state the properties of those functions. The functions of the declaration
walk and of the template text are built from the generic combinators
`MapAll` and `FlatMap`, and each loop body of the walk is a helper method.

## Model

| member | source | states |
|---|---|---|
| Signature.TypeName | cmd/mock_gen/main.go:196-219 | getTypeName: an identifier is its name, a qualified name is "pkg.Sel", a pointer is its pointee's text (the `*` is dropped), a slice or array is "[]" and its element, a map is "map[K]V", an inline interface is "interface{}", a function type is "func" and its signature, anything else is "" (no contract; its properties are the lemmas below) |
| Signature.FunctionSignature | cmd/mock_gen/main.go:235-244 | getFunctionSignature: the parameter text and the result text, each only when its list is present, joined by ", " inside one pair of parentheses (no contract; see FunctionSignatureEntries) |
| Signature.FunctionSignatureEntries | cmd/mock_gen/main.go:235-244 | with non-empty plain parameter and result lists, the text inside the parentheses is the parameter entries followed by the result entries, joined by ", ", and cutting it at ", " gives back exactly those entries: nothing marks where the parameters end |
| Signature.GetParameters | cmd/mock_gen/main.go:169-184 | the loop over fields and names yields `Parameters(fl)`: one "name type" entry per declared name, the type alone for an unnamed field, "" for an absent list, joined by ", " |
| Signature.SingleNamedParam | cmd/mock_gen/main.go:178-180 | a single named entry renders as "name type" |
| Signature.SingleUnnamedParam | cmd/mock_gen/main.go:173-176 | a single unnamed entry renders as its type alone |
| Signature.ExpandFieldsOrder | cmd/mock_gen/main.go:169-184 | for any field list, expanding the first n fields gives at least n entries, the entry types are the declared types in order (repeated once per name), and when every field is named the entry names are the declared names in order |
| Signature.ExpandFieldsPlain | cmd/mock_gen/main.go:169-184 | when every declared name and every type text is one token without a comma, every expanded entry is too |
| Signature.SimpleTypeIsPlain | cmd/mock_gen/main.go:196-211 | a sufficient condition for the round trips below: identifiers, qualified names, pointers, slices/arrays, maps and interfaces built from plain names render as a single token with no comma |
| Signature.PointerErased | cmd/mock_gen/main.go:204-205 | any number of pointer markers renders as the pointee's text (the `*` is dropped) |
| Signature.FuncTypeOneParenPair | cmd/mock_gen/main.go:214-215 | a function type with parameters and results renders as "func(" + params + ", " + results + ")", inside one pair of parentheses |
| Signature.ParamsOnlyFuncType | cmd/mock_gen/main.go:235-244 | a function type without results renders as "func(" + params + ")" |
| Signature.NoArgFuncIsPlain | cmd/mock_gen/main.go:214-215 | `func()` renders as "func()", one token without a comma, so ArgumentNamesRoundTrip and ReturnNamesRoundTrip apply to `func()`-typed entries |
| Signature.NoParamFuncType | cmd/mock_gen/main.go:235-244 | `func() t` renders as "func(, t)": the empty parameter list still contributes its empty text and a separator |
| Signature.GetArgumentNames | cmd/mock_gen/main.go:186-194 | the loop over the ", "-pieces yields `ArgumentNames`: the first field of each piece, joined by ", ", or a panic when a piece has no field |
| Signature.SplitRendered | cmd/mock_gen/main.go:187 | plain rendered entries are cut back apart exactly by the ", " split |
| Signature.FieldsOfRenderedParam | cmd/mock_gen/main.go:190 | a plain entry splits on white space into its name (if any) and its type |
| Signature.ArgumentNamesOfParams | cmd/mock_gen/main.go:186-194 | for plain entries, the names forwarded are each entry's name, or its type text when it has none, joined by ", " |
| Signature.ArgumentNamesRoundTrip | cmd/mock_gen/main.go:169-194 | getArgumentNames(getParameters(fl)) is exactly the declared parameter names joined by ", ", in order, for a non-empty list of named fields whose names and type texts are single tokens without a comma (identifiers, qualified names, pointers, slices, maps and inline interfaces built from plain names, by SimpleTypeIsPlain, and `func()`; types that render "" — channels, `...T`, structs — are not covered) |
| Signature.UnnamedParamForwardsType | cmd/mock_gen/main.go:173-174 | an unnamed parameter whose type text is one token without a comma is forwarded under that text |
| Signature.EmptyEntryPanics | cmd/mock_gen/main.go:186-233 | an unnamed entry with empty type text, at any position among plain entries, leaves an empty piece after the ", " split, and both getArgumentNames and getReturnNames panic on it |
| Signature.EmptyTypeTextPanics | cmd/mock_gen/main.go:169-233 | an unnamed parameter or result whose type renders as "" (a channel, `...T`, a struct), at any position in a list whose other fields are plain, makes getArgumentNames and getReturnNames panic on the text getParameters renders |
| Signature.TypeNameFromString | cmd/mock_gen/main.go:230-233 | the result is absent (a panic) exactly when the piece is all white space; otherwise it is a token |
| Signature.GetReturnNames | cmd/mock_gen/main.go:221-228 | the indexed loop yields `ReturnNames`: "args.Get(i).(T)" for piece i, T its last field, joined by ", ", or a panic when a piece has no field |
| Signature.ReturnNamesOfParams | cmd/mock_gen/main.go:221-233 | for plain entries, the extractions are indexed 0..n-1 and each is cast to its entry's type |
| Signature.ReturnNamesRoundTrip | cmd/mock_gen/main.go:221-233 | getReturnNames applied to the text getParameters renders has exactly one extraction per declared result, indexed 0..n-1 and cast to its declared type, for a non-empty list whose names and type texts are single tokens without a comma |
| Signature.EmptyListPanics | cmd/mock_gen/main.go:169-194 | an absent or empty list renders as "", and both getArgumentNames and getReturnNames panic on it |
| Signature.SingleResultExtraction | cmd/mock_gen/main.go:221-233 | a single result, named or not, whose name and type text are one token without a comma, is extracted at index 0 as its type |
| Signature.NamedResultExtractsLikeUnnamed | cmd/mock_gen/main.go:221-233 | a named result and an unnamed result of the same type, whose type text is one token without a comma, give the same extraction, "args.Get(0).(T)", and a package-qualified type is kept whole |
| GoStrings.Split | cmd/mock_gen/main.go:187 | strings.Split with a non-empty separator returns at least one piece, and joining the pieces with the separator gives back the input |
| GoStrings.SplitJoin | cmd/mock_gen/main.go:183-187 | Split undoes Join when no part contains the separator's first character |
| GoStrings.SplitPrefix | cmd/mock_gen/main.go:187 | a leading piece free of the separator's first character is cut off as the first piece |
| GoStrings.JoinAppend | cmd/mock_gen/main.go:243 | joining two non-empty lists is joining each and putting one separator between the two texts |
| GoStrings.JoinSnoc | cmd/mock_gen/main.go:183 | joining one more part appends the separator and that part |
| GoStrings.Fields | cmd/mock_gen/main.go:190 | strings.Fields returns only non-empty runs without white space, and returns nothing exactly when the input is all white space |
| GoStrings.TokenEndOfToken | cmd/mock_gen/main.go:190 | a token followed by white space or by nothing ends exactly where the token ends |
| GoStrings.FieldsOfToken | cmd/mock_gen/main.go:190 | a single token is its own only field |
| GoStrings.FieldsOfPair | cmd/mock_gen/main.go:179-190 | "a b" for two tokens splits back into [a, b] |
| GoStrings.FieldsHead | cmd/mock_gen/main.go:190-191 | a token followed by white space is the first field |
| GoStrings.NatToString | cmd/mock_gen/main.go:225 | `%d` of a non-negative integer is a non-empty string of decimal digits |
| GoStrings.NatToStringValue | cmd/mock_gen/main.go:225 | the digits `%d` prints read back as the number printed |
| Wrappers.MapAll | cmd/mock_gen/main.go:145-167 | collecting one result per element gives exactly as many results as elements |
| Wrappers.MapAllPanics | cmd/mock_gen/main.go:145-167 | a run over the elements panics exactly when one element panics |
| Wrappers.MapAllAt | cmd/mock_gen/main.go:145-167 | the i-th result is the i-th element's result |
| Wrappers.MapAllPrefixPanics | cmd/mock_gen/main.go:145-167 | once an element has panicked, what follows does not change the outcome |
| Wrappers.FlatMapAppend | cmd/mock_gen/main.go:104-129 | the results of two inputs placed one after the other are the first's results followed by the second's |
| Wrappers.FlatMapHas | cmd/mock_gen/main.go:104-129 | every result of every element appears in the output |
| Wrappers.FlatMapEmpty | cmd/mock_gen/main.go:104-129 | the output is empty exactly when every element gives nothing |
| Assembler.MethodText | cmd/mock_gen/main.go:152-160 | the fixed layout of one method: `func (m *Mock) Name(params) (results) {`, then `args := m.Called(names)`, then `return extractions`, then `}` (no contract; filled in by MethodCode and the lemmas below) |
| Assembler.GetMethodCode | cmd/mock_gen/main.go:147-164 | one iteration yields `MethodCode`: the fixed method layout filled with the mock name, the method name, both lists, the forwarded names and the extractions; it panics for an entry without a name or that is not a function, and when either re-split panics |
| Assembler.MethodCodesStep | cmd/mock_gen/main.go:147-165 | the i-th method's code extends the codes of the first i methods, and a panic on it panics the whole interface |
| Assembler.GetMethodsFromInterface | cmd/mock_gen/main.go:145-167 | the loop yields `MethodCodes`: one code per interface entry, in declaration order, or a panic |
| Assembler.MethodCodesPanics | cmd/mock_gen/main.go:145-167 | generating an interface panics exactly when generating one of its entries panics |
| Assembler.MethodCodesAt | cmd/mock_gen/main.go:145-167 | an interface gets as many codes as entries, and the i-th code is the code of the i-th entry |
| Assembler.MethodCodeOfPlainMethod | cmd/mock_gen/main.go:148-160 | a method whose parameters are named and whose names and type texts are single tokens without a comma becomes `func (m *M) Name(params) (results)`; it forwards the declared parameter names in order and extracts one value per declared result, indexed 0..n-1, cast to its type |
| Assembler.EmptySignaturePanics | cmd/mock_gen/main.go:149-160 | a method without parameters or without results makes generation panic |
| Assembler.NoTargetsIff | cmd/mock_gen/main.go:104-129 | the walk finds no interface exactly when no declaration holds an interface type spec or a struct type spec with an interface-typed field: function, value and import declarations and other type specs are skipped |
| Assembler.BuildMocksPanicsIff | cmd/mock_gen/main.go:104-129 | the walk panics exactly when one of the interfaces it found panics |
| Assembler.BuildMocksAt | cmd/mock_gen/main.go:109-123 | there is one mock per interface found; the i-th is named after the i-th interface with "Mock" appended and has one method per entry of that interface |
| Assembler.BuildMocksPanics | cmd/mock_gen/main.go:104-129 | one panicking interface among those found panics the whole walk |
| Assembler.PanicAt | cmd/mock_gen/main.go:104-129 | a panicking interface found in any spec of any declaration panics the whole walk |
| Assembler.TargetsOfDeclsAppend | cmd/mock_gen/main.go:104-129 | mocks follow source order: the interfaces of two declaration runs are the first run's followed by the second's |
| Assembler.AddMock | cmd/mock_gen/main.go:110-114 | appending one interface's mock extends `BuildMocks` by that interface, and a field interface without a name panics |
| Assembler.FieldMocks | cmd/mock_gen/main.go:116-123 | a struct field whose type is an inline interface adds its mock; other fields add nothing |
| Assembler.CollectFieldMocks | cmd/mock_gen/main.go:116-124 | the loop over a struct's fields adds the mocks of its interface-typed fields, in order, or panics |
| Assembler.SpecMocks | cmd/mock_gen/main.go:107-125 | an interface type spec adds its mock, a struct type spec adds its fields' mocks, and any other spec adds nothing |
| Assembler.CollectSpecMocks | cmd/mock_gen/main.go:106-127 | the loop over the specs adds their mocks, in order, or panics |
| Assembler.DeclMocks | cmd/mock_gen/main.go:105-128 | a general declaration adds its specs' mocks; any other declaration adds nothing |
| Assembler.CollectMocks | cmd/mock_gen/main.go:102-129 | the whole walk yields `BuildMocks(TargetsOfDecls(decls))`: one mock per interface type and per interface-typed struct field, in source order, or a panic |
| Renderer.Block | cmd/mock_gen/main.go:22-30 | one iteration of the outer range: "type M struct {" with the embedded `mock.Mock`, the mock's methods, and the newline kept before the next mock (no contract; see MethodsTextIsJoin and BlocksAppend) |
| Renderer.Render | cmd/mock_gen/main.go:16-31 | the template executed on the mocks: the constant `Header` (the package clause and the import of testify's mock package) followed by one block per mock (no contract; see RenderHeaderAlone) |
| Renderer.RenderHeaderAlone | cmd/mock_gen/main.go:16-31 | every generated text starts with the package clause and the import, and is exactly that header when there are no mocks, and only then |
| Renderer.Generate | cmd/mock_gen/main.go:95-143 | interfaceToMock as a function of the parser's result: the parse error, a panic of the walk, or the rendered mocks (no contract; see InterfaceToMock, GeneratePanics and NoInterfacesGivesHeader) |
| Renderer.HeaderAloneIffNoTargets | cmd/mock_gen/main.go:95-143 | the output is the header alone exactly when the walk finds no interface |
| Renderer.InterfaceToMock | cmd/mock_gen/main.go:95-143 | a parse error gives the parser's error, a panic in the walk gives a panic, and otherwise the text is the template executed on the collected mocks |
| Renderer.MethodsTextIsJoin | cmd/mock_gen/main.go:26-29 | the methods of a mock are their codes joined by blank lines, after a leading blank line |
| Renderer.BlocksAppend | cmd/mock_gen/main.go:22-30 | mocks are written in the order collected: the text for two runs of mocks is the first run's text followed by the second's |
| Renderer.NoInterfacesGivesHeader | cmd/mock_gen/main.go:104-129 | a file yields the package clause and the import alone exactly when it holds no interface type and no struct type with an interface-typed field |
| Renderer.GeneratePanics | cmd/mock_gen/main.go:95-143 | generation panics exactly when some interface found by the walk panics |
| Renderer.SingleInterfaceTargets | cmd/mock_gen/main.go:107-114 | a file declaring one interface type has exactly that interface to mock |
| Renderer.SingleInterfaceOutput | cmd/mock_gen/main.go:16-31 | one interface type whose methods all generate yields the header followed by that interface's mock |
| Renderer.EmptyInterfaceMock | cmd/mock_gen/main.go:22-30 | an interface without methods yields a mock struct with an empty body, and no methods |
| Scenarios.TwoNamedParams | cmd/mock_gen/main_test.go:18-21 | `(a ta, b tb)` renders as "a ta, b tb" |
| Scenarios.SharedTypeParams | cmd/mock_gen/main_test.go:119-122 | `(a, b t)` renders as "a t, b t": a shared type is repeated for each name |
| Scenarios.TwoUnnamedParams | cmd/mock_gen/main_test.go:18-21 | `(ta, tb)` renders as "ta, tb" |
| Scenarios.DeclaredPair | cmd/mock_gen/main_test.go:118-122 | the declared names and types of two fields are those of the first followed by those of the second |
| Scenarios.TwoByTwoCalls | cmd/mock_gen/main_test.go:17-41 | two named parameters are forwarded as "a, b", and two results as "args.Get(0).(ra), args.Get(1).(rb)" |
| Scenarios.ClassicMethod | cmd/mock_gen/main_test.go:17-41 | the "classic" method shape `Name(a ta, b tb) (ra, rb)` gives exactly the expected method text |
| Scenarios.ReusedTypeNamedResultsMethod | cmd/mock_gen/main_test.go:118-143 | the "reused_type" / "named_returned" shape `Name(a, b t) (r1 ra, r2 rb)` repeats the shared type, keeps the result names, and extracts by position and type |
| Scenarios.ReusedTypeTexts | cmd/mock_gen/main_test.go:145-170 | the four texts of that shape (parameters, results, forwarded names, extractions), with package-qualified types allowed as in "pack" |
| Scenarios.SharedCalls | cmd/mock_gen/main_test.go:118-143 | `(a, b t)` is forwarded as "a, b" |
| Scenarios.TwoMethodCodes | cmd/mock_gen/main_test.go:17-41 | two generated methods give their interface both codes, in declaration order |
| Scenarios.TwoMethodInterface | cmd/mock_gen/main_test.go:17-41 | the "classic" file gives the header and one mock holding both methods, first declared first |
| Scenarios.TwoMethodsText | cmd/mock_gen/main_test.go:29-41 | each method of a mock comes after a blank line |
| Scenarios.TwoInterfaceFields | cmd/mock_gen/main_test.go:44-89 | the "classic_2" struct with two interface-typed fields gives one mock per field, named after the field, in field order |
| Scenarios.TwoFieldTargets | cmd/mock_gen/main_test.go:44-54 | those two fields are the file's only interfaces to mock, in field order |
| Scenarios.TwoMocks | cmd/mock_gen/main_test.go:55-89 | two mocks are rendered one after the other after the header |
| Scenarios.FuncParamText | cmd/mock_gen/main.go:214-215 | the parameter `f func(x ta, y tb)` renders with ", " inside its function type |
| Scenarios.FuncParamMisnamed | cmd/mock_gen/main.go:186-194 | for that one parameter, the ", " split sees two pieces, so "f, y" is forwarded to m.Called where only "f" is declared |

## Left out

- `main` and `getWriter` (`cmd/mock_gen/main.go:48-93`) are not modelled. They hold the command-line handling, the choice between a file and stdout, and the buffered writer, which are all I/O.
- `parser.ParseFile` is a parameter. `InterfaceToMock` takes the parsed declarations, or None for a parse error, in place of the source text. Go's parser is not part of this model.
- Template parsing and template execution errors (`cmd/mock_gen/main.go:131-140`) are left out. The template is a constant, and writing to a buffer does not fail in the model.
- Error wrapping with `fmt.Errorf` is left out. A parse error is the single outcome `ParseFailed`, without its message.
- The text of `getTypeName` for `*ast.SelectorExpr` whose `X` is not an identifier is not modelled. The Go code panics on the nil identifier there. `GoAst.Selector` holds the package name as a string, which is what the parser produces in type positions.
- The length of an array type is not modelled. `[N]T` and `[]T` both render as "[]T", so `GoAst.Array` has no length.
- Channel, ellipsis and other type nodes are all `GoAst.Other` and render as "", as the default branch of `getTypeName` does.
- Strings are sequences of characters, not UTF-8 bytes. `IsSpace` lists the characters Go's `unicode.IsSpace` accepts.
- The test file's concrete identifiers (`bidule`, `arg1`, `string`, …) are not evaluated as literals. `Scenarios` states each test's shape for any names and types whose text is one token without a comma, which covers those literals.

=== FILE: assembler.dfy ===
/** Assembly of the mocks: the code of each interface method
    (getMethodsFromInterface) and the walk over the parsed declarations that
    picks out interface types and interface-typed struct fields
    (interfaceToMock, cmd/mock_gen/main.go). */
module Assembler {
  import opened Wrappers
  import opened GoStrings
  import opened GoAst
  import opened Signature

  /** One mock to emit: its type name and the code of each of its methods. */
  datatype Mock = Mock(mockName: string, methods: seq<string>)

  /** An interface found by the walk, with the name its mock is derived from;
      None for a struct field without a name (where `Names[0]` panics). */
  datatype Target = Target(name: Option<string>, iface: FieldList)

  /** The fixed layout of one generated method. */
  function MethodText(mockName: string, methodName: string, paramList: string, returnList: string,
                      argNames: string, returnNames: string): string
  {
    "func (m *" + mockName + ") " + methodName + "(" + paramList + ") (" + returnList
      + ") {\n\targs := m.Called(" + argNames + ")\n\treturn " + returnNames + "\n}"
  }

  /** The code generated for one entry of an interface's method list; None when
      generation panics on it: an entry without a name (an embedded interface),
      a type that is not a function, or a parameter or result list whose text
      has an empty piece (in particular an empty list). */
  function MethodCode(entry: Field, mockName: string): Option<string> {
    if |entry.names| == 0 then None
    else match entry.typ
      case Func(sig) =>
        var paramList := Parameters(sig.params);
        var returnList := Parameters(sig.results);
        var argNames := ArgumentNames(paramList);
        var returnNames := ReturnNames(returnList);
        if argNames.Some? && returnNames.Some? then
          Some(MethodText(mockName, entry.names[0], paramList, returnList, argNames.value, returnNames.value))
        else None
      case _ => None
  }

  /** The codes of the given interface entries, in declaration order; None
      when generation panics on any of them. */
  function MethodCodes(entries: seq<Field>, mockName: string): Option<seq<string>> {
    MapAll(entries, e => MethodCode(e, mockName))
  }

  /** Generation panics on an interface exactly when it panics on one of
      its methods. */
  lemma MethodCodesPanics(entries: seq<Field>, mockName: string)
    ensures MethodCodes(entries, mockName).None? <==>
            exists i :: 0 <= i < |entries| && MethodCode(entries[i], mockName).None?
  {
    MapAllPanics(entries, e => MethodCode(e, mockName));
  }

  /** One code per method, the i-th being the code of the i-th method. */
  lemma MethodCodesAt(entries: seq<Field>, mockName: string, i: nat)
    requires i < |entries| && MethodCodes(entries, mockName).Some?
    ensures |MethodCodes(entries, mockName).value| == |entries|
    ensures MethodCode(entries[i], mockName) == Some(MethodCodes(entries, mockName).value[i])
  {
    MapAllAt(entries, e => MethodCode(e, mockName), i);
  }

  /** The body of getMethodsFromInterface's loop: the code of one entry. */
  method GetMethodCode(entry: Field, mockName: string) returns (r: Option<string>)
    ensures r == MethodCode(entry, mockName)
  {
    if |entry.names| == 0 || !entry.typ.Func? {
      return None;
    }
    var methodName := entry.names[0];
    var paramList := GetParameters(entry.typ.sig.params);
    var returnList := GetParameters(entry.typ.sig.results);
    var argNames := GetArgumentNames(paramList);
    var returnNames := GetReturnNames(returnList);
    if argNames.None? || returnNames.None? {
      return None;
    }
    return Some(MethodText(mockName, methodName, paramList, returnList, argNames.value, returnNames.value));
  }

  /** One step of getMethodsFromInterface's loop: the i-th code extends the
      codes of the first i entries, and a panic on it panics the whole list. */
  lemma MethodCodesStep(entries: seq<Field>, i: nat, mockName: string, methods: seq<string>, code: Option<string>)
    requires i < |entries| && MethodCodes(entries[..i], mockName) == Some(methods)
    requires code == MethodCode(entries[i], mockName)
    ensures code.Some? ==> MethodCodes(entries[..i + 1], mockName) == Some(methods + [code.value])
    ensures code.None? ==> MethodCodes(entries, mockName) == None
  {
    var f := e => MethodCode(e, mockName);
    assert entries[..i + 1] == entries[..i] + [entries[i]];
    MapAllSnoc(entries[..i], entries[i], f);
    if code.None? {
      assert entries[..i + 1] + entries[i + 1..] == entries;
      MapAllPrefixPanics(entries[..i + 1], entries[i + 1..], f);
    }
  }

  /** getMethodsFromInterface: the loop over the interface's method list. */
  method GetMethodsFromInterface(iface: FieldList, mockName: string) returns (r: Option<seq<string>>)
    ensures r == MethodCodes(iface.list, mockName)
  {
    var entries := iface.list;
    var methods: seq<string> := [];
    for i := 0 to |entries|
      invariant MethodCodes(entries[..i], mockName) == Some(methods)
    {
      var code := GetMethodCode(entries[i], mockName);
      MethodCodesStep(entries, i, mockName, methods, code);
      if code.None? {
        return None;
      }
      methods := methods + [code.value];
    }
    assert entries[..|entries|] == entries;
    return Some(methods);
  }

  /** A method with named plain parameters and plain results is generated as
      `func (m *M) Name(params) (results)` whose body forwards the declared
      parameter names in order and extracts one value per declared result,
      indexed 0..n-1, cast to its type. */
  lemma MethodCodeOfPlainMethod(name: string, params: FieldList, results: FieldList, mockName: string)
    requires |params.list| >= 1 && PlainFields(params.list) && AllNamed(params.list)
    requires |results.list| >= 1 && PlainFields(results.list)
    ensures MethodCode(Field([name], Func(FuncType(Some(params), Some(results)))), mockName)
         == Some(MethodText(mockName, name, Parameters(Some(params)), Parameters(Some(results)),
                            Join(DeclaredNames(params.list), ", "),
                            Join(Extractions(DeclaredTypes(results.list)), ", ")))
  {
    ArgumentNamesRoundTrip(params);
    ReturnNamesRoundTrip(results);
  }

  /** A method without parameters, or without results, makes generation panic. */
  lemma EmptySignaturePanics(name: string, sig: FuncType, mockName: string)
    requires sig.params.None? || sig.params.value.list == [] || sig.results.None? || sig.results.value.list == []
    ensures MethodCode(Field([name], Func(sig)), mockName) == None
  {
    if sig.params.None? || sig.params.value.list == [] {
      EmptyListPanics(sig.params);
    } else {
      EmptyListPanics(sig.results);
    }
  }

  // ---------------------------------------------------------------------------
  // The declaration walk

  /** A struct field contributes a target when its type is an inline interface. */
  function TargetsOfField(f: Field): seq<Target> {
    match f.typ
    case Interface(methods) => [Target(if |f.names| == 0 then None else Some(f.names[0]), methods)]
    case _ => []
  }

  function TargetsOfFields(fs: seq<Field>): seq<Target> {
    FlatMap(fs, TargetsOfField)
  }

  /** An interface type spec is one target; a struct type spec contributes its
      interface-typed fields; anything else nothing. */
  function TargetsOfSpec(s: Spec): seq<Target> {
    match s
    case TypeSpec(name, Interface(methods)) => [Target(Some(name), methods)]
    case TypeSpec(_, Struct(fields)) => TargetsOfFields(fields.list)
    case _ => []
  }

  function TargetsOfSpecs(ss: seq<Spec>): seq<Target> {
    FlatMap(ss, TargetsOfSpec)
  }

  function TargetsOfDecl(d: Decl): seq<Target> {
    match d
    case GenDecl(specs) => TargetsOfSpecs(specs)
    case FuncDecl(_) => []
  }

  /** The interfaces to mock, in source order. */
  function TargetsOfDecls(ds: seq<Decl>): seq<Target> {
    FlatMap(ds, TargetsOfDecl)
  }

  /** A spec in which the walk finds nothing: neither an interface type nor a
      struct type with an interface-typed field. */
  predicate SpecWithoutInterface(s: Spec) {
    match s
    case TypeSpec(_, Interface(_)) => false
    case TypeSpec(_, Struct(fields)) => forall j :: 0 <= j < |fields.list| ==> !fields.list[j].typ.Interface?
    case _ => true
  }

  /** A declaration in which the walk finds nothing: a function, or a group
      of specs without interfaces. */
  predicate DeclWithoutInterface(d: Decl) {
    match d
    case GenDecl(specs) => forall k :: 0 <= k < |specs| ==> SpecWithoutInterface(specs[k])
    case FuncDecl(_) => true
  }

  lemma SpecTargetsEmpty(s: Spec)
    ensures TargetsOfSpec(s) == [] <==> SpecWithoutInterface(s)
  {
    if s.TypeSpec? && s.typ.Struct? {
      FlatMapEmpty(s.typ.fields.list, TargetsOfField);
    }
  }

  lemma DeclTargetsEmpty(d: Decl)
    ensures TargetsOfDecl(d) == [] <==> DeclWithoutInterface(d)
  {
    if d.GenDecl? {
      FlatMapEmpty(d.specs, TargetsOfSpec);
      forall k | 0 <= k < |d.specs|
        ensures TargetsOfSpec(d.specs[k]) == [] <==> SpecWithoutInterface(d.specs[k])
      {
        SpecTargetsEmpty(d.specs[k]);
      }
    }
  }

  /** The walk finds no interface exactly when no declaration holds an
      interface type or a struct with an interface-typed field: value,
      import and function declarations and other type specs are skipped. */
  lemma NoTargetsIff(decls: seq<Decl>)
    ensures TargetsOfDecls(decls) == [] <==> forall i :: 0 <= i < |decls| ==> DeclWithoutInterface(decls[i])
  {
    FlatMapEmpty(decls, TargetsOfDecl);
    forall i | 0 <= i < |decls|
      ensures TargetsOfDecl(decls[i]) == [] <==> DeclWithoutInterface(decls[i])
    {
      DeclTargetsEmpty(decls[i]);
    }
  }

  /** The mock of one target, named after its source name plus "Mock". */
  function MockOf(t: Target): Option<Mock> {
    match t.name
    case None => None
    case Some(n) =>
      var mockName := n + "Mock";
      match MethodCodes(t.iface.list, mockName)
      case None => None
      case Some(methods) => Some(Mock(mockName, methods))
  }

  /** The mocks of all targets, in order; None when any of them panics. */
  function BuildMocks(ts: seq<Target>): Option<seq<Mock>> {
    MapAll(ts, MockOf)
  }

  /** The walk panics exactly when one of the interfaces it found panics. */
  lemma BuildMocksPanicsIff(ts: seq<Target>)
    ensures BuildMocks(ts).None? <==> exists i :: 0 <= i < |ts| && MockOf(ts[i]).None?
  {
    MapAllPanics(ts, MockOf);
  }

  /** The i-th mock belongs to the i-th interface found: it is named after it
      with "Mock" appended and holds one code per method of it. */
  lemma BuildMocksAt(ts: seq<Target>, i: nat)
    requires i < |ts| && BuildMocks(ts).Some?
    ensures |BuildMocks(ts).value| == |ts|
    ensures MockOf(ts[i]) == Some(BuildMocks(ts).value[i])
    ensures ts[i].name.Some? && BuildMocks(ts).value[i].mockName == ts[i].name.value + "Mock"
    ensures |BuildMocks(ts).value[i].methods| == |ts[i].iface.list|
  {
    MapAllAt(ts, MockOf, i);
  }

  /** One target that panics makes the whole walk panic. */
  lemma BuildMocksPanics(ts: seq<Target>, t: Target)
    requires t in ts && MockOf(t).None?
    ensures BuildMocks(ts) == None
  {
    BuildMocksPanicsIff(ts);
    var j :| 0 <= j < |ts| && ts[j] == t;
  }

  /** A panicking target found at decls[i], spec k, field m (when the spec is a
      struct) panics the whole walk. */
  lemma PanicAt(decls: seq<Decl>, i: nat, k: nat, t: Target)
    requires i < |decls| && decls[i].GenDecl? && k < |decls[i].specs|
    requires t in TargetsOfSpec(decls[i].specs[k]) && MockOf(t).None?
    ensures BuildMocks(TargetsOfDecls(decls)) == None
  {
    FlatMapHas(decls[i].specs, k, TargetsOfSpec, t);
    FlatMapHas(decls, i, TargetsOfDecl, t);
    BuildMocksPanics(TargetsOfDecls(decls), t);
  }

  /** Mocks follow source order: the targets of two declaration sequences put
      one after the other are the first's targets followed by the second's. */
  lemma TargetsOfDeclsAppend(a: seq<Decl>, b: seq<Decl>)
    ensures TargetsOfDecls(a + b) == TargetsOfDecls(a) + TargetsOfDecls(b)
  {
    FlatMapAppend(a, b, TargetsOfDecl);
  }

  /** One interface found by the walk: its mock, named after the target with
      "Mock" appended, joins those collected so far; a target without a name
      panics on `Names[0]`. */
  method AddMock(t: Target, ghost seen: seq<Target>, acc: seq<Mock>) returns (r: Option<seq<Mock>>)
    requires BuildMocks(seen) == Some(acc)
    ensures r == BuildMocks(seen + [t])
  {
    assert (seen + [t])[..|seen|] == seen;
    if t.name.None? {
      return None;
    }
    var mockName := t.name.value + "Mock";
    var ms := GetMethodsFromInterface(t.iface, mockName);
    if ms.None? {
      return None;
    }
    return Some(acc + [Mock(mockName, ms.value)]);
  }

  /** One struct field: a field whose type is an inline interface adds its
      mock; any other field adds nothing. */
  method FieldMocks(field: Field, ghost seen: seq<Target>, acc: seq<Mock>) returns (r: Option<seq<Mock>>)
    requires BuildMocks(seen) == Some(acc)
    ensures r == BuildMocks(seen + TargetsOfField(field))
  {
    if field.typ.Interface? {
      r := AddMock(Target(if |field.names| == 0 then None else Some(field.names[0]), field.typ.methods), seen, acc);
    } else {
      assert seen + TargetsOfField(field) == seen;
      r := Some(acc);
    }
  }

  /** The innermost loop of the walk, over the fields of one struct type.
      `found` is what the walk has seen before it. */
  method CollectFieldMocks(fields: seq<Field>, ghost found: seq<Target>, mocks: seq<Mock>) returns (r: Option<seq<Mock>>)
    requires BuildMocks(found) == Some(mocks)
    ensures r == BuildMocks(found + TargetsOfFields(fields))
  {
    var acc := mocks;
    ghost var seen := found;
    for m := 0 to |fields|
      invariant seen == found + TargetsOfFields(fields[..m])
      invariant BuildMocks(seen) == Some(acc)
    {
      ghost var here, rest := TargetsOfField(fields[m]), TargetsOfFields(fields[m + 1..]);
      FlatMapStep(fields, m, TargetsOfField, found);
      var step := FieldMocks(fields[m], seen, acc);
      if step.None? {
        MapAllPrefixPanics(seen + here, rest, MockOf);
        return None;
      }
      acc := step.value;
      seen := seen + here;
    }
    assert fields[..|fields|] == fields;
    return Some(acc);
  }

  /** One spec of a general declaration: an interface type spec adds its
      mock, a struct type spec hands its fields to the innermost loop, any
      other spec adds nothing. */
  method SpecMocks(spec: Spec, ghost seen: seq<Target>, acc: seq<Mock>) returns (r: Option<seq<Mock>>)
    requires BuildMocks(seen) == Some(acc)
    ensures r == BuildMocks(seen + TargetsOfSpec(spec))
  {
    if spec.TypeSpec? && spec.typ.Interface? {
      r := AddMock(Target(Some(spec.name), spec.typ.methods), seen, acc);
    } else if spec.TypeSpec? && spec.typ.Struct? {
      r := CollectFieldMocks(spec.typ.fields.list, seen, acc);
    } else {
      assert seen + TargetsOfSpec(spec) == seen;
      r := Some(acc);
    }
  }

  /** The middle loop of the walk, over the specs of one general declaration. */
  method CollectSpecMocks(specs: seq<Spec>, ghost found: seq<Target>, mocks: seq<Mock>) returns (r: Option<seq<Mock>>)
    requires BuildMocks(found) == Some(mocks)
    ensures r == BuildMocks(found + TargetsOfSpecs(specs))
  {
    var acc := mocks;
    ghost var seen := found;
    for k := 0 to |specs|
      invariant seen == found + TargetsOfSpecs(specs[..k])
      invariant BuildMocks(seen) == Some(acc)
    {
      ghost var here, rest := TargetsOfSpec(specs[k]), TargetsOfSpecs(specs[k + 1..]);
      FlatMapStep(specs, k, TargetsOfSpec, found);
      var step := SpecMocks(specs[k], seen, acc);
      if step.None? {
        MapAllPrefixPanics(seen + here, rest, MockOf);
        return None;
      }
      acc := step.value;
      seen := seen + here;
    }
    assert specs[..|specs|] == specs;
    return Some(acc);
  }

  /** One declaration: a general declaration hands its specs to the middle
      loop; a function declaration adds nothing. */
  method DeclMocks(decl: Decl, ghost seen: seq<Target>, acc: seq<Mock>) returns (r: Option<seq<Mock>>)
    requires BuildMocks(seen) == Some(acc)
    ensures r == BuildMocks(seen + TargetsOfDecl(decl))
  {
    if decl.GenDecl? {
      r := CollectSpecMocks(decl.specs, seen, acc);
    } else {
      assert seen + TargetsOfDecl(decl) == seen;
      r := Some(acc);
    }
  }

  /** The declaration walk of interfaceToMock: the outer loop over the file's
      declarations. */
  method CollectMocks(decls: seq<Decl>) returns (r: Option<seq<Mock>>)
    ensures r == BuildMocks(TargetsOfDecls(decls))
  {
    var acc: seq<Mock> := [];
    ghost var seen: seq<Target> := [];
    for i := 0 to |decls|
      invariant seen == TargetsOfDecls(decls[..i])
      invariant BuildMocks(seen) == Some(acc)
    {
      ghost var here, rest := TargetsOfDecl(decls[i]), TargetsOfDecls(decls[i + 1..]);
      FlatMapStep(decls, i, TargetsOfDecl, []);
      assert [] + TargetsOfDecls(decls[..i]) == seen;
      assert [] + TargetsOfDecls(decls[..i + 1]) == seen + here;
      assert [] + TargetsOfDecls(decls) == TargetsOfDecls(decls);
      var step := DeclMocks(decls[i], seen, acc);
      if step.None? {
        MapAllPrefixPanics(seen + here, rest, MockOf);
        return None;
      }
      acc := step.value;
      seen := seen + here;
    }
    assert decls[..|decls|] == decls;
    return Some(acc);
  }
}

=== FILE: go_ast.dfy ===
/** The slice of Go's syntax tree (package go/ast) that the mock generator
    inspects. Node kinds it never distinguishes are collapsed into `Other`. */
module GoAst {
  import opened Wrappers

  /** A type expression. */
  datatype TypeExpr =
    | Ident(name: string)                  // a type name, `string`
    | Selector(pkg: string, sel: string)   // a qualified name, `foo.Bar`
    | Star(elem: TypeExpr)                 // a pointer, `*T`
    | Array(elem: TypeExpr)                // a slice `[]T` or an array `[N]T` (the length is never read)
    | Map(key: TypeExpr, value: TypeExpr)  // `map[K]V`
    | Interface(methods: FieldList)        // an inline `interface { ... }`
    | Struct(fields: FieldList)            // `struct { ... }`
    | Func(sig: FuncType)                  // `func(...) ...`
    | Other                                // channels, `...T`, parenthesised and instantiated types

  /** A function type; either list may be absent (a nil *ast.FieldList). */
  datatype FuncType = FuncType(params: Option<FieldList>, results: Option<FieldList>)

  /** One entry of a parameter, result, method or struct-field list: zero or
      more names sharing one type (`a, b int`, or a bare `error`). In a method
      list the type of a method is a `Func`. */
  datatype Field = Field(names: seq<string>, typ: TypeExpr)

  datatype FieldList = FieldList(list: seq<Field>)

  /** A spec of a general declaration: only type specs matter. */
  datatype Spec = TypeSpec(name: string, typ: TypeExpr) | ValueSpec | ImportSpec

  /** A top-level declaration: a `type`/`var`/`const`/`import` group, or a function. */
  datatype Decl = GenDecl(specs: seq<Spec>) | FuncDecl(name: string)
}

=== FILE: go_strings.dfy ===
/** The parts of Go's `strings`, `unicode` and `fmt` packages that the mock
    generator relies on: `strings.Join`, `strings.Split`, `strings.Fields`,
    `unicode.IsSpace` and the `%d` rendering of a non-negative integer. */
module GoStrings {

  /** unicode.IsSpace: the Latin-1 spaces plus the Unicode White_Space characters. */
  predicate IsSpace(c: char) {
    || c == ' ' || c == '\t' || c == '\n' || c == '\U{000B}' || c == '\U{000C}' || c == '\r'
    || c == '\U{0085}' || c == '\U{00A0}' || c == '\U{1680}'
    || ('\U{2000}' <= c <= '\U{200A}')
    || c == '\U{2028}' || c == '\U{2029}' || c == '\U{202F}' || c == '\U{205F}' || c == '\U{3000}'
  }

  /** A non-empty run of non-space characters: what `strings.Fields` returns pieces of. */
  predicate Token(t: string) {
    t != [] && forall i :: 0 <= i < |t| ==> !IsSpace(t[i])
  }

  /** strings.Join */
  function Join(parts: seq<string>, sep: string): string {
    if |parts| == 0 then ""
    else if |parts| == 1 then parts[0]
    else parts[0] + sep + Join(parts[1..], sep)
  }

  /** Joining one more part puts it after a separator at the end. */
  lemma {:induction false} JoinSnoc(parts: seq<string>, last: string, sep: string)
    requires |parts| >= 1
    ensures Join(parts + [last], sep) == Join(parts, sep) + sep + last
  {
    var whole := parts + [last];
    assert whole[1..] == parts[1..] + [last];
    if |parts| > 1 {
      JoinSnoc(parts[1..], last, sep);
    }
  }

  /** Joining two non-empty lists is joining each and putting a separator
      between the two texts. */
  lemma {:induction false} JoinAppend(a: seq<string>, b: seq<string>, sep: string)
    requires |a| >= 1 && |b| >= 1
    ensures Join(a + b, sep) == Join(a, sep) + sep + Join(b, sep)
    decreases |a|
  {
    if |a| == 1 {
      assert (a + b)[1..] == b;
    } else {
      assert (a + b)[1..] == a[1..] + b;
      JoinAppend(a[1..], b, sep);
      assert Join(a + b, sep) == a[0] + sep + (Join(a[1..], sep) + sep + Join(b, sep));
    }
  }

  /** Joining two parts puts one separator between them. */
  lemma JoinPair(x: string, y: string, sep: string)
    ensures Join([x, y], sep) == x + sep + y
  {
    assert [x, y][1..] == [y];
  }

  /** strings.Split for a non-empty separator: cut `s` at every occurrence of
      `sep`, scanning left to right without overlaps. The pieces always put
      back together to `s`. */
  function Split(s: string, sep: string): (r: seq<string>)
    requires sep != []
    ensures |r| >= 1
    ensures Join(r, sep) == s
    decreases |s|
  {
    if |s| < |sep| then [s]
    else if s[..|sep|] == sep then
      var rest := Split(s[|sep|..], sep);
      assert s == sep + s[|sep|..];
      [""] + rest
    else
      var rest := Split(s[1..], sep);
      var r := [[s[0]] + rest[0]] + rest[1..];
      assert r[1..] == rest[1..];
      assert s == [s[0]] + s[1..];
      r
  }

  /** The length of the leading run of non-space characters of `s`. */
  function TokenEnd(s: string): (n: nat)
    ensures n <= |s|
    ensures forall i :: 0 <= i < n ==> !IsSpace(s[i])
    ensures n == |s| || IsSpace(s[n])
  {
    if s == [] || IsSpace(s[0]) then 0 else 1 + TokenEnd(s[1..])
  }

  /** strings.Fields: the maximal runs of non-space characters of `s`, in order.
      Every piece is a token, and there is none exactly when `s` is all space. */
  function Fields(s: string): (r: seq<string>)
    ensures forall k :: 0 <= k < |r| ==> Token(r[k])
    ensures r == [] <==> forall i :: 0 <= i < |s| ==> IsSpace(s[i])
    decreases |s|
  {
    if s == [] then []
    else if IsSpace(s[0]) then
      var r := Fields(s[1..]);
      assert forall i :: 1 <= i < |s| ==> s[i] == s[1..][i - 1];
      r
    else
      var n := TokenEnd(s);
      [s[..n]] + Fields(s[n..])
  }

  lemma {:induction false} TokenEndOfToken(t: string, rest: string)
    requires Token(t)
    requires rest == [] || IsSpace(rest[0])
    ensures TokenEnd(t + rest) == |t|
    decreases |t|
  {
    var s := t + rest;
    assert s[0] == t[0];
    if |t| > 1 {
      assert s[1..] == t[1..] + rest;
      TokenEndOfToken(t[1..], rest);
    } else {
      assert s[1..] == rest;
    }
  }

  /** A single token splits into itself. */
  lemma FieldsOfToken(t: string)
    requires Token(t)
    ensures Fields(t) == [t]
  {
    TokenEndOfToken(t, []);
    assert t + [] == t;
    assert t[|t|..] == [];
  }

  /** Two tokens joined by one space split back into the two tokens. */
  lemma FieldsOfPair(a: string, b: string)
    requires Token(a) && Token(b)
    ensures Fields(a + " " + b) == [a, b]
  {
    var s := a + " " + b;
    TokenEndOfToken(a, " " + b);
    assert s == a + (" " + b);
    assert s[..|a|] == a;
    var tail := s[|a|..];
    assert tail == " " + b;
    assert tail[1..] == b;
    FieldsOfToken(b);
  }

  /** A token followed by a space (or by nothing) is the first field. */
  lemma FieldsHead(a: string, rest: string)
    requires Token(a)
    requires rest == [] || IsSpace(rest[0])
    ensures |Fields(a + rest)| >= 1 && Fields(a + rest)[0] == a
  {
    TokenEndOfToken(a, rest);
    assert (a + rest)[..|a|] == a;
  }

  /** Splitting text that starts with a piece free of `sep[0]` and then `sep`
      gives that piece first. */
  lemma {:induction false} SplitPrefix(p: string, sep: string, rest: string)
    requires sep != []
    requires sep[0] !in p
    ensures Split(p + sep + rest, sep) == [p] + Split(rest, sep)
    decreases |p|
  {
    var s := p + sep + rest;
    if p == [] {
      assert s == sep + rest;
      assert s[..|sep|] == sep;
      assert s[|sep|..] == rest;
    } else {
      assert s[0] == p[0] && s[0] != sep[0];
      assert s[..|sep|][0] == s[0];
      assert s[1..] == p[1..] + sep + rest;
      SplitPrefix(p[1..], sep, rest);
      assert [s[0]] + p[1..] == p;
    }
  }

  /** A piece free of `sep[0]` is not cut at all. */
  lemma {:induction false} SplitWhole(p: string, sep: string)
    requires sep != []
    requires sep[0] !in p
    ensures Split(p, sep) == [p]
    decreases |p|
  {
    if |p| >= |sep| {
      assert p[..|sep|][0] == p[0];
      assert p[0] in p;
      SplitWhole(p[1..], sep);
      assert [p[0]] + p[1..] == p;
    }
  }

  /** Split undoes Join when no part holds the first character of the separator. */
  lemma {:induction false} SplitJoin(parts: seq<string>, sep: string)
    requires sep != [] && |parts| >= 1
    requires forall k :: 0 <= k < |parts| ==> sep[0] !in parts[k]
    ensures Split(Join(parts, sep), sep) == parts
    decreases |parts|
  {
    if |parts| == 1 {
      SplitWhole(parts[0], sep);
    } else {
      SplitJoin(parts[1..], sep);
      SplitPrefix(parts[0], sep, Join(parts[1..], sep));
      assert [parts[0]] + parts[1..] == parts;
    }
  }

  function Digit(d: nat): (c: char)
    requires d < 10
    ensures '0' <= c <= '9'
  {
    ['0', '1', '2', '3', '4', '5', '6', '7', '8', '9'][d]
  }

  /** The value of a string of decimal digits. */
  function DecimalValue(s: string): nat
    requires forall i :: 0 <= i < |s| ==> '0' <= s[i] <= '9'
  {
    if s == [] then 0
    else DecimalValue(s[..|s| - 1]) * 10 + (s[|s| - 1] as int - '0' as int)
  }

  /** fmt's `%d` for a non-negative integer: decimal digits, most significant first. */
  function NatToString(n: nat): (r: string)
    ensures r != []
    ensures forall i :: 0 <= i < |r| ==> '0' <= r[i] <= '9'
  {
    if n < 10 then [Digit(n)] else NatToString(n / 10) + [Digit(n % 10)]
  }

  /** `%d` is read back as the number it renders. */
  lemma {:induction false} NatToStringValue(n: nat)
    ensures DecimalValue(NatToString(n)) == n
  {
    if n >= 10 {
      NatToStringValue(n / 10);
      var s := NatToString(n);
      assert s[..|s| - 1] == NatToString(n / 10);
    }
    assert Digit(n % 10) as int - '0' as int == n % 10;
  }
}

=== FILE: renderer.dfy ===
/** The output of mock_gen: the mock template filled in with the mocks the
    declaration walk collected, and interfaceToMock, which ties parsing, the
    walk and the template together (cmd/mock_gen/main.go). */
module Renderer {
  import opened Wrappers
  import opened GoStrings
  import opened GoAst
  import opened Signature
  import opened Assembler

  /** The fixed start of every generated file: the package clause and the
      import of testify's mock package. */
  const Header: string := "\npackage mocks\n\nimport (\n\t\"github.com/stretchr/testify/mock\"\n)\n"

  /** One iteration of the inner range: a blank line, then the method's code. */
  function MethodEntry(code: string): string {
    "\n\n" + code
  }

  /** The inner range of the template, in the order of the methods. */
  function MethodsText(codes: seq<string>): string {
    FlatMap(codes, MethodEntry)
  }

  /** One iteration of the outer range: the mock's struct type embedding
      mock.Mock, its methods, and the newline the template keeps before the
      next mock. */
  function Block(m: Mock): string {
    "\ntype " + m.mockName + " struct {\n\tmock.Mock\n}" + MethodsText(m.methods) + "\n"
  }

  /** The outer range of the template, in the order of the mocks. */
  function Blocks(ms: seq<Mock>): string {
    FlatMap(ms, Block)
  }

  /** The text the template produces for the given mocks. */
  function Render(ms: seq<Mock>): string {
    Header + Blocks(ms)
  }

  /** What interfaceToMock ends in: the generated text, the parser's error,
      or a runtime panic during the walk. */
  datatype Outcome = Generated(text: string) | ParseFailed | Panicked

  /** interfaceToMock on the parser's result (None when the parser reports
      an error). */
  function Generate(parsed: Option<seq<Decl>>): Outcome {
    match parsed
    case None => ParseFailed
    case Some(decls) =>
      match BuildMocks(TargetsOfDecls(decls))
      case None => Panicked
      case Some(mocks) => Generated(Render(mocks))
  }

  /** interfaceToMock: walk the parsed declarations, then execute the
      template on the mocks collected. */
  method InterfaceToMock(parsed: Option<seq<Decl>>) returns (out: Outcome)
    ensures out == Generate(parsed)
  {
    if parsed.None? {
      return ParseFailed;
    }
    var mocks := CollectMocks(parsed.value);
    if mocks.None? {
      return Panicked;
    }
    return Generated(Render(mocks.value));
  }

  /** The methods of a mock are its codes joined by blank lines, after a
      leading blank line. */
  lemma {:induction false} MethodsTextIsJoin(codes: seq<string>)
    requires |codes| >= 1
    ensures MethodsText(codes) == "\n\n" + Join(codes, "\n\n")
  {
    var last := codes[|codes| - 1];
    if |codes| > 1 {
      var init := codes[..|codes| - 1];
      MethodsTextIsJoin(init);
      JoinSnoc(init, last, "\n\n");
      assert codes == init + [last];
      AppendAssociates("\n\n", Join(init, "\n\n"), "\n\n" + last);
    } else {
      assert codes == [last];
      FlatMapOne(last, MethodEntry);
    }
  }

  /** Mocks are written in the order they were collected: the text for two
      runs of mocks is the text for the first followed by the second's. */
  lemma BlocksAppend(a: seq<Mock>, b: seq<Mock>)
    ensures Blocks(a + b) == Blocks(a) + Blocks(b)
  {
    FlatMapAppend(a, b, Block);
  }

  /** Every generated text starts with the header, and is the header alone
      exactly when there are no mocks: each mock adds a non-empty block. */
  lemma RenderHeaderAlone(ms: seq<Mock>)
    ensures Header <= Render(ms)
    ensures Render(ms) == Header <==> |ms| == 0
  {
    if |ms| > 0 {
      var last := ms[|ms| - 1];
      assert ms == ms[..|ms| - 1] + [last];
      BlocksAppend(ms[..|ms| - 1], [last]);
      FlatMapOne(last, Block);
      assert |Blocks(ms)| > 0;
    } else {
      assert Header + [] == Header;
    }
  }

  /** The output is the header alone exactly when the walk finds no
      interface: with at least one, either a mock block follows the header
      or generation panics. */
  lemma HeaderAloneIffNoTargets(decls: seq<Decl>)
    ensures Generate(Some(decls)) == Generated(Header) <==> TargetsOfDecls(decls) == []
  {
    var ts := TargetsOfDecls(decls);
    var built := BuildMocks(ts);
    if built.Some? {
      RenderHeaderAlone(built.value);
    }
  }

  /** A file without an interface type and without a struct that has an
      interface-typed field, and only such a file, yields the header alone. */
  lemma NoInterfacesGivesHeader(decls: seq<Decl>)
    ensures Generate(Some(decls)) == Generated(Header)
        <==> forall i :: 0 <= i < |decls| ==> DeclWithoutInterface(decls[i])
  {
    HeaderAloneIffNoTargets(decls);
    NoTargetsIff(decls);
  }

  /** Generation panics exactly when some interface found by the walk
      panics: a struct field of interface type without a name, or a method
      that is not a named function with parameters and results. */
  lemma GeneratePanics(decls: seq<Decl>)
    ensures Generate(Some(decls)) == Panicked <==>
            exists t :: t in TargetsOfDecls(decls) && MockOf(t).None?
  {
    var ts := TargetsOfDecls(decls);
    BuildMocksPanicsIff(ts);
    if Generate(Some(decls)) == Panicked {
      var i :| 0 <= i < |ts| && MockOf(ts[i]).None?;
      assert ts[i] in ts;
    }
    if t :| t in ts && MockOf(t).None? {
      BuildMocksPanics(ts, t);
    }
  }

  /** A file declaring one interface type has that interface as its only
      target. */
  lemma SingleInterfaceTargets(name: string, iface: FieldList)
    ensures TargetsOfDecls([GenDecl([TypeSpec(name, Interface(iface))])]) == [Target(Some(name), iface)]
  {
    var specs := [TypeSpec(name, Interface(iface))];
    var decls := [GenDecl(specs)];
    FlatMapOne(specs[0], TargetsOfSpec);
    FlatMapOne(decls[0], TargetsOfDecl);
  }

  /** A single interface type whose methods all generate yields the header
      and that one mock. */
  lemma SingleInterfaceOutput(name: string, iface: FieldList, codes: seq<string>)
    requires MethodCodes(iface.list, name + "Mock") == Some(codes)
    ensures Generate(Some([GenDecl([TypeSpec(name, Interface(iface))])]))
         == Generated(Header + Block(Mock(name + "Mock", codes)))
  {
    SingleInterfaceTargets(name, iface);
    var t := Target(Some(name), iface);
    var m := Mock(name + "Mock", codes);
    MapAllOne(t, MockOf);
    FlatMapOne(m, Block);
  }

  /** An interface with no methods yields a mock with an empty body. */
  lemma EmptyInterfaceMock(name: string)
    ensures Generate(Some([GenDecl([TypeSpec(name, Interface(FieldList([])))])]))
         == Generated(Header + ("\ntype " + (name + "Mock") + " struct {\n\tmock.Mock\n}" + "\n"))
  {
    SingleInterfaceOutput(name, FieldList([]), []);
    var opening := "\ntype " + (name + "Mock") + " struct {\n\tmock.Mock\n}";
    assert MethodsText([]) == "";
    assert opening + "" == opening;
  }
}

=== FILE: scenarios.dfy ===
/** The cases of cmd/mock_gen/main_test.go, stated for any names and any
    types whose text is one token without a comma, in the shape each case uses: an interface of two methods with two
    parameters and two results ("classic"), named results ("named_returned"),
    two names sharing one type ("reused_type"), package-qualified types
    ("pack", whose `foo.Bar` is one such token) and a struct with two interface-typed fields
    ("classic_2"). */
module Scenarios {
  import opened Wrappers
  import opened GoStrings
  import opened GoAst
  import opened Signature
  import opened Assembler
  import opened Renderer

  /** `(a ta, b tb)` renders as "a ta, b tb". */
  lemma TwoNamedParams(a: string, ta: TypeExpr, b: string, tb: TypeExpr)
    ensures Parameters(Some(FieldList([Field([a], ta), Field([b], tb)])))
         == (a + " " + TypeName(ta)) + ", " + (b + " " + TypeName(tb))
  {
    var l := FieldList([Field([a], ta), Field([b], tb)]);
    var p, q := Param(Some(a), TypeName(ta)), Param(Some(b), TypeName(tb));
    assert ExpandFields(l, 1) == [] + [p];
    assert ExpandFields(l, 2) == [p] + [q] == [p, q];
    assert Rendered([p, q]) == [RenderParam(p), RenderParam(q)];
    JoinPair(RenderParam(p), RenderParam(q), ", ");
  }

  /** `(a, b t)` renders as "a t, b t": the shared type is repeated. */
  lemma SharedTypeParams(a: string, b: string, t: TypeExpr)
    ensures Parameters(Some(FieldList([Field([a, b], t)])))
         == (a + " " + TypeName(t)) + ", " + (b + " " + TypeName(t))
  {
    var l := FieldList([Field([a, b], t)]);
    var ps := [Param(Some(a), TypeName(t)), Param(Some(b), TypeName(t))];
    assert ExpandField(l.list[0]) == ps;
    assert ExpandFields(l, 1) == [] + ps == ps;
    var rs := [a + " " + TypeName(t), b + " " + TypeName(t)];
    assert Rendered(Expand(Some(l))) == rs;
    JoinPair(rs[0], rs[1], ", ");
  }

  /** `(ta, tb)` renders as "ta, tb". */
  lemma TwoUnnamedParams(ta: TypeExpr, tb: TypeExpr)
    ensures Parameters(Some(FieldList([Field([], ta), Field([], tb)]))) == TypeName(ta) + ", " + TypeName(tb)
  {
    var l := FieldList([Field([], ta), Field([], tb)]);
    var p, q := Param(None, TypeName(ta)), Param(None, TypeName(tb));
    assert ExpandFields(l, 1) == [] + [p];
    assert ExpandFields(l, 2) == [p] + [q] == [p, q];
    assert Rendered([p, q]) == [RenderParam(p), RenderParam(q)];
    JoinPair(RenderParam(p), RenderParam(q), ", ");
  }

  lemma DeclaredPair(f: Field, g: Field)
    ensures DeclaredNames([f, g]) == f.names + g.names
    ensures DeclaredTypes([f, g]) == DeclaredTypes([f]) + DeclaredTypes([g])
  {
    var fs := [f, g];
    assert fs[..|fs| - 1] == [f];
    assert [f][..0] == [] && [g][..0] == [];
    assert DeclaredNames([f]) == [] + f.names == f.names;
  }

  /** The names forwarded to m.Called and the extractions for two results
      typed ra and rb, named or not. */
  lemma TwoByTwoCalls(p: Field, q: Field, r: Field, s: Field)
    requires |p.names| == 1 && |q.names| == 1 && |r.names| <= 1 && |s.names| <= 1
    ensures Join(DeclaredNames([p, q]), ", ") == p.names[0] + ", " + q.names[0]
    ensures Join(Extractions(DeclaredTypes([r, s])), ", ")
         == Extraction(0, TypeName(r.typ)) + ", " + Extraction(1, TypeName(s.typ))
  {
    DeclaredPair(p, q);
    DeclaredPair(r, s);
    SingleDeclaredType(r);
    SingleDeclaredType(s);
    assert p.names + q.names == [p.names[0], q.names[0]];
    JoinPair(p.names[0], q.names[0], ", ");
    assert [TypeName(r.typ)] + [TypeName(s.typ)] == [TypeName(r.typ), TypeName(s.typ)];
    var es := Extractions([TypeName(r.typ), TypeName(s.typ)]);
    assert es == [Extraction(0, TypeName(r.typ)), Extraction(1, TypeName(s.typ))];
    JoinPair(es[0], es[1], ", ");
  }

  /** "classic": `name(a ta, b tb) (ra, rb)` becomes a method that forwards
      "a, b" to m.Called and returns args.Get(0) as ra and args.Get(1) as rb. */
  lemma ClassicMethod(name: string, a: string, ta: TypeExpr, b: string, tb: TypeExpr, ra: TypeExpr, rb: TypeExpr, mockName: string)
    requires Plain(a) && Plain(b) && Plain(TypeName(ta)) && Plain(TypeName(tb)) && Plain(TypeName(ra)) && Plain(TypeName(rb))
    ensures MethodCode(Field([name], Func(FuncType(
              Some(FieldList([Field([a], ta), Field([b], tb)])),
              Some(FieldList([Field([], ra), Field([], rb)]))))), mockName)
         == Some(MethodText(mockName, name,
                   (a + " " + TypeName(ta)) + ", " + (b + " " + TypeName(tb)),
                   TypeName(ra) + ", " + TypeName(rb),
                   a + ", " + b,
                   Extraction(0, TypeName(ra)) + ", " + Extraction(1, TypeName(rb))))
  {
    var params := FieldList([Field([a], ta), Field([b], tb)]);
    var results := FieldList([Field([], ra), Field([], rb)]);
    MethodCodeOfPlainMethod(name, params, results, mockName);
    TwoNamedParams(a, ta, b, tb);
    TwoUnnamedParams(ra, rb);
    TwoByTwoCalls(params.list[0], params.list[1], results.list[0], results.list[1]);
  }

  /** "reused_type" with "named_returned": `name(a, b t) (r1 ra, r2 rb)`
      repeats the shared type in the parameter list, keeps the result names
      in the result list, and still extracts the results by position and
      type alone. */
  lemma ReusedTypeNamedResultsMethod(name: string, a: string, b: string, t: TypeExpr,
                                     r1: string, ra: TypeExpr, r2: string, rb: TypeExpr, mockName: string)
    requires Plain(a) && Plain(b) && Plain(TypeName(t)) && Plain(r1) && Plain(r2) && Plain(TypeName(ra)) && Plain(TypeName(rb))
    ensures MethodCode(Field([name], Func(FuncType(
              Some(FieldList([Field([a, b], t)])),
              Some(FieldList([Field([r1], ra), Field([r2], rb)]))))), mockName)
         == Some(MethodText(mockName, name,
                   (a + " " + TypeName(t)) + ", " + (b + " " + TypeName(t)),
                   (r1 + " " + TypeName(ra)) + ", " + (r2 + " " + TypeName(rb)),
                   a + ", " + b,
                   Extraction(0, TypeName(ra)) + ", " + Extraction(1, TypeName(rb))))
  {
    var params := FieldList([Field([a, b], t)]);
    var results := FieldList([Field([r1], ra), Field([r2], rb)]);
    ReusedTypeTexts(a, b, t, r1, ra, r2, rb);
    MethodCodeOfPlainMethod(name, params, results, mockName);
  }

  /** The four texts of "reused_type" with "named_returned", and the shape
      the generator handles as intended. */
  lemma ReusedTypeTexts(a: string, b: string, t: TypeExpr, r1: string, ra: TypeExpr, r2: string, rb: TypeExpr)
    requires Plain(a) && Plain(b) && Plain(TypeName(t)) && Plain(r1) && Plain(r2) && Plain(TypeName(ra)) && Plain(TypeName(rb))
    ensures var params, results := [Field([a, b], t)], [Field([r1], ra), Field([r2], rb)];
      && PlainFields(params) && AllNamed(params) && PlainFields(results)
      && Parameters(Some(FieldList(params))) == (a + " " + TypeName(t)) + ", " + (b + " " + TypeName(t))
      && Parameters(Some(FieldList(results))) == (r1 + " " + TypeName(ra)) + ", " + (r2 + " " + TypeName(rb))
      && Join(DeclaredNames(params), ", ") == a + ", " + b
      && Join(Extractions(DeclaredTypes(results)), ", ")
         == Extraction(0, TypeName(ra)) + ", " + Extraction(1, TypeName(rb))
  {
    SharedTypeParams(a, b, t);
    TwoNamedParams(r1, ra, r2, rb);
    SharedCalls(a, b, t, Field([r1], ra), Field([r2], rb));
  }

  lemma SharedCalls(a: string, b: string, t: TypeExpr, r: Field, s: Field)
    requires |r.names| <= 1 && |s.names| <= 1
    ensures Join(DeclaredNames([Field([a, b], t)]), ", ") == a + ", " + b
    ensures Join(Extractions(DeclaredTypes([r, s])), ", ")
         == Extraction(0, TypeName(r.typ)) + ", " + Extraction(1, TypeName(s.typ))
  {
    var f := Field([a, b], t);
    assert [f][..0] == [];
    assert DeclaredNames([f]) == [] + [a, b] == [a, b];
    JoinPair(a, b, ", ");
    TwoByTwoCalls(Field([a], t), Field([b], t), r, s);
  }

  /** Two generated methods give an interface its two codes, in order. */
  lemma TwoMethodCodes(e1: Field, e2: Field, mockName: string, c1: string, c2: string)
    requires MethodCode(e1, mockName) == Some(c1) && MethodCode(e2, mockName) == Some(c2)
    ensures MethodCodes([e1, e2], mockName) == Some([c1, c2])
  {
    MapAllTwo(e1, e2, e => MethodCode(e, mockName));
  }

  /** "classic" as a whole file: one interface of two methods gives the
      header and one mock holding both methods, the first declared first. */
  lemma TwoMethodInterface(name: string, e1: Field, e2: Field, c1: string, c2: string)
    requires MethodCode(e1, name + "Mock") == Some(c1) && MethodCode(e2, name + "Mock") == Some(c2)
    ensures Generate(Some([GenDecl([TypeSpec(name, Interface(FieldList([e1, e2])))])]))
         == Generated(Header + Block(Mock(name + "Mock", [c1, c2])))
  {
    TwoMethodCodes(e1, e2, name + "Mock", c1, c2);
    SingleInterfaceOutput(name, FieldList([e1, e2]), [c1, c2]);
  }

  /** Each method of a mock comes after a blank line. */
  lemma TwoMethodsText(c1: string, c2: string)
    ensures MethodsText([c1, c2]) == "\n\n" + c1 + "\n\n" + c2
  {
    FlatMapAppend([c1], [c2], MethodEntry);
    assert [c1] + [c2] == [c1, c2];
    FlatMapOne(c1, MethodEntry);
    FlatMapOne(c2, MethodEntry);
  }

  /** "classic_2": a struct with two interface-typed fields gives one mock per
      field, named after the field, in field order. */
  lemma TwoInterfaceFields(s: string, n1: string, i1: FieldList, n2: string, i2: FieldList, cs1: seq<string>, cs2: seq<string>)
    requires MethodCodes(i1.list, n1 + "Mock") == Some(cs1) && MethodCodes(i2.list, n2 + "Mock") == Some(cs2)
    ensures Generate(Some([GenDecl([TypeSpec(s, Struct(FieldList([Field([n1], Interface(i1)), Field([n2], Interface(i2))])))])]))
         == Generated(Header + (Block(Mock(n1 + "Mock", cs1)) + Block(Mock(n2 + "Mock", cs2))))
  {
    var fields := [Field([n1], Interface(i1)), Field([n2], Interface(i2))];
    var t1, t2 := Target(Some(n1), i1), Target(Some(n2), i2);
    TwoFieldTargets(s, fields, t1, t2);
    var m1, m2 := Mock(n1 + "Mock", cs1), Mock(n2 + "Mock", cs2);
    TwoMocks(t1, t2, m1, m2);
  }

  lemma TwoFieldTargets(s: string, fields: seq<Field>, t1: Target, t2: Target)
    requires |fields| == 2 && fields[0].typ.Interface? && fields[1].typ.Interface?
    requires |fields[0].names| == 1 && |fields[1].names| == 1
    requires t1 == Target(Some(fields[0].names[0]), fields[0].typ.methods)
    requires t2 == Target(Some(fields[1].names[0]), fields[1].typ.methods)
    ensures TargetsOfDecls([GenDecl([TypeSpec(s, Struct(FieldList(fields)))])]) == [t1, t2]
  {
    FlatMapAppend([fields[0]], [fields[1]], TargetsOfField);
    assert [fields[0]] + [fields[1]] == fields;
    FlatMapOne(fields[0], TargetsOfField);
    FlatMapOne(fields[1], TargetsOfField);
    var specs := [TypeSpec(s, Struct(FieldList(fields)))];
    FlatMapOne(specs[0], TargetsOfSpec);
    FlatMapOne(GenDecl(specs), TargetsOfDecl);
  }

  lemma TwoMocks(t1: Target, t2: Target, m1: Mock, m2: Mock)
    requires MockOf(t1) == Some(m1) && MockOf(t2) == Some(m2)
    ensures BuildMocks([t1, t2]) == Some([m1, m2])
    ensures Render([m1, m2]) == Header + (Block(m1) + Block(m2))
  {
    MapAllTwo(t1, t2, MockOf);
    FlatMapAppend([m1], [m2], Block);
    assert [m1] + [m2] == [m1, m2];
    FlatMapOne(m1, Block);
    FlatMapOne(m2, Block);
  }

  /** The text of `f func(x ta, y tb)`, cut where ", " occurs. */
  lemma FuncParamText(f: string, x: string, ta: TypeExpr, y: string, tb: TypeExpr)
    ensures Parameters(Some(FieldList([Field([f], Func(FuncType(Some(FieldList([Field([x], ta), Field([y], tb)])), None)))])))
         == (f + (" func(" + x + " " + TypeName(ta))) + ", " + (y + (" " + TypeName(tb) + ")"))
  {
    var inner := FieldList([Field([x], ta), Field([y], tb)]);
    var ft := Func(FuncType(Some(inner), None));
    SingleNamedParam(f, ft);
    ParamsOnlyFuncType(inner);
    TwoNamedParams(x, ta, y, tb);
    FuncParamRegroup(f, x, TypeName(ta), y, TypeName(tb));
  }

  lemma FuncParamRegroup(f: string, x: string, a: string, y: string, b: string)
    ensures f + " " + ("func" + ("(" + ((x + " " + a) + ", " + (y + " " + b)) + ")"))
         == (f + (" func(" + x + " " + a)) + ", " + (y + (" " + b + ")"))
  {
  }

  /** A function-typed parameter breaks the names forwarded to m.Called: the
      text of `f func(x ta, y tb)` holds ", " inside the function type, so
      the re-split sees two pieces and forwards `f, y` for the one
      parameter `f`. */
  lemma FuncParamMisnamed(f: string, x: string, ta: TypeExpr, y: string, tb: TypeExpr)
    requires Plain(f) && Plain(x) && Plain(y) && Plain(TypeName(ta)) && Plain(TypeName(tb))
    ensures ArgumentNames(Parameters(Some(FieldList([Field([f], Func(FuncType(
              Some(FieldList([Field([x], ta), Field([y], tb)])), None)))]))))
         == Some(f + ", " + y)
  {
    FuncParamText(f, x, ta, y, tb);
    var ta', tb' := TypeName(ta), TypeName(tb);
    var piece1, piece2 := f + (" func(" + x + " " + ta'), y + (" " + tb' + ")");
    SplitPrefix(piece1, ", ", piece2);
    SplitWhole(piece2, ", ");
    var pieces := Split(piece1 + ", " + piece2, ", ");
    assert pieces == [piece1, piece2];
    FieldsHead(f, " func(" + x + " " + ta');
    FieldsHead(y, " " + tb' + ")");
    assert seq(|pieces|, i requires 0 <= i < |pieces| && Fields(pieces[i]) != [] => Fields(pieces[i])[0]) == [f, y];
    JoinPair(f, y, ", ");
  }
}

=== FILE: signature.dfy ===
/** Rendering of types and of parameter/result lists, and the re-splitting of
    that text into call-site argument names and result extractions
    (getTypeName, getFunctionSignature, getParameters, getArgumentNames,
    getReturnNames and getTypeNameFromString in cmd/mock_gen/main.go). */
module Signature {
  import opened Wrappers
  import opened GoStrings
  import opened GoAst

  /** One parameter or result after grouped names are expanded: its name, when
      one is declared, and its rendered type. */
  datatype Param = Param(name: Option<string>, typ: string)

  /** getTypeName: the text of a type expression. A pointer loses its `*`, an
      array its length, an inline interface its methods; an unsupported node
      renders as the empty string. */
  function TypeName(t: TypeExpr): string
    decreases t
  {
    match t
    case Ident(name) => name
    case Selector(pkg, sel) => pkg + "." + sel
    case Star(elem) => TypeName(elem)
    case Array(elem) => "[]" + TypeName(elem)
    case Map(key, value) => "map[" + TypeName(key) + "]" + TypeName(value)
    case Interface(_) => "interface{}"
    case Func(sig) => "func" + FunctionSignature(sig)
    case _ => ""
  }

  /** getFunctionSignature: the parameter text and the result text, each only
      when its list is present, joined by ", " inside ONE pair of parentheses. */
  function FunctionSignature(sig: FuncType): string
    decreases sig
  {
    var lists := (if sig.params.Some? then [Parameters(sig.params)] else [])
               + (if sig.results.Some? then [Parameters(sig.results)] else []);
    "(" + Join(lists, ", ") + ")"
  }

  /** What getParameters returns: the rendered entries of the expanded list,
      joined by ", "; an absent list gives "". */
  function Parameters(fl: Option<FieldList>): string
    decreases fl, 1
  {
    Join(Rendered(Expand(fl)), ", ")
  }

  /** The entries of a list in order, one per declared name, or one for a field
      without names. */
  function Expand(fl: Option<FieldList>): seq<Param>
    decreases fl, 0
  {
    match fl
    case None => []
    case Some(l) => ExpandFields(l, |l.list|)
  }

  /** The entries of the first `n` fields of `l`. */
  function ExpandFields(l: FieldList, n: nat): seq<Param>
    requires n <= |l.list|
    decreases l, n
  {
    if n == 0 then [] else ExpandFields(l, n - 1) + ExpandField(l.list[n - 1])
  }

  function ExpandField(f: Field): seq<Param>
    decreases f
  {
    var t := TypeName(f.typ);
    if |f.names| == 0 then [Param(None, t)]
    else seq(|f.names|, i requires 0 <= i < |f.names| => Param(Some(f.names[i]), t))
  }

  /** `name type`, or the type alone for an unnamed entry. */
  function RenderParam(p: Param): string {
    match p.name
    case None => p.typ
    case Some(n) => n + " " + p.typ
  }

  function Rendered(ps: seq<Param>): seq<string> {
    seq(|ps|, i requires 0 <= i < |ps| => RenderParam(ps[i]))
  }

  /** getParameters: the loop over fields and names, appending one rendered
      entry at a time, as the generator does it. */
  method GetParameters(fl: Option<FieldList>) returns (text: string)
    ensures text == Parameters(fl)
  {
    var params: seq<string> := [];
    if fl.Some? {
      var fields := fl.value.list;
      for i := 0 to |fields|
        invariant params == Rendered(ExpandFields(fl.value, i))
      {
        var field := fields[i];
        if |field.names| == 0 {
          params := params + [TypeName(field.typ)];
        } else {
          for k := 0 to |field.names|
            invariant params == Rendered(ExpandFields(fl.value, i) + ExpandField(field)[..k])
          {
            params := params + [field.names[k] + " " + TypeName(field.typ)];
            RenderedSnoc(ExpandFields(fl.value, i) + ExpandField(field)[..k], ExpandField(field)[k]);
            assert ExpandFields(fl.value, i) + ExpandField(field)[..k + 1]
                == ExpandFields(fl.value, i) + ExpandField(field)[..k] + [ExpandField(field)[k]];
          }
          assert ExpandField(field)[..|field.names|] == ExpandField(field);
        }
      }
    }
    text := Join(params, ", ");
  }

  lemma RenderedSnoc(ps: seq<Param>, p: Param)
    ensures Rendered(ps + [p]) == Rendered(ps) + [RenderParam(p)]
  {
  }

  /** What getArgumentNames returns: the first field of every ", "-separated
      piece, joined by ", "; None (a panic on `parts[0]`) when some piece has
      no field at all. */
  function ArgumentNames(paramList: string): Option<string> {
    var pieces := Split(paramList, ", ");
    if forall i :: 0 <= i < |pieces| ==> Fields(pieces[i]) != [] then
      Some(Join(seq(|pieces|, i requires 0 <= i < |pieces| && Fields(pieces[i]) != [] => Fields(pieces[i])[0]), ", "))
    else None
  }

  /** getArgumentNames, with its loop. */
  method GetArgumentNames(paramList: string) returns (r: Option<string>)
    ensures r == ArgumentNames(paramList)
  {
    var params := Split(paramList, ", ");
    var argNames: seq<string> := [];
    for i := 0 to |params|
      invariant |argNames| == i
      invariant forall j :: 0 <= j < i ==> Fields(params[j]) != [] && argNames[j] == Fields(params[j])[0]
    {
      var parts := Fields(params[i]);
      if |parts| == 0 {
        return None;
      }
      argNames := argNames + [parts[0]];
    }
    assert argNames == seq(|params|, i requires 0 <= i < |params| && Fields(params[i]) != [] => Fields(params[i])[0]);
    return Some(Join(argNames, ", "));
  }

  /** getTypeNameFromString: the last field of `s`, or None (a panic on
      `parts[len(parts)-1]`) when `s` is all space. */
  function TypeNameFromString(s: string): (r: Option<string>)
    ensures r.None? <==> forall i :: 0 <= i < |s| ==> IsSpace(s[i])
    ensures r.Some? ==> Token(r.value)
  {
    var parts := Fields(s);
    if |parts| == 0 then None else Some(parts[|parts| - 1])
  }

  /** The expression that takes the `i`-th recorded return value as a `t`. */
  function Extraction(i: nat, t: string): string {
    "args.Get(" + NatToString(i) + ").(" + t + ")"
  }

  function Extractions(types: seq<string>): seq<string> {
    seq(|types|, i requires 0 <= i < |types| => Extraction(i, types[i]))
  }

  /** What getReturnNames returns: one extraction per ", "-separated piece, at
      its position, cast to the piece's last field; None when some piece has
      no field. */
  function ReturnNames(returnList: string): Option<string> {
    var pieces := Split(returnList, ", ");
    if forall i :: 0 <= i < |pieces| ==> TypeNameFromString(pieces[i]).Some? then
      Some(Join(seq(|pieces|, i requires 0 <= i < |pieces| && TypeNameFromString(pieces[i]).Some? =>
                                Extraction(i, TypeNameFromString(pieces[i]).value)), ", "))
    else None
  }

  /** getReturnNames, with its index counter. */
  method GetReturnNames(returnList: string) returns (r: Option<string>)
    ensures r == ReturnNames(returnList)
  {
    var returnNames := Split(returnList, ", ");
    var names: seq<string> := [];
    var i := 0;
    while i < |returnNames|
      invariant 0 <= i <= |returnNames|
      invariant |names| == i
      invariant forall j :: 0 <= j < i ==>
        TypeNameFromString(returnNames[j]).Some? && names[j] == Extraction(j, TypeNameFromString(returnNames[j]).value)
    {
      var t := TypeNameFromString(returnNames[i]);
      if t.None? {
        return None;
      }
      names := names + ["args.Get(" + NatToString(i) + ").(" + t.value + ")"];
      i := i + 1;
    }
    assert names == seq(|returnNames|, j requires 0 <= j < |returnNames| && TypeNameFromString(returnNames[j]).Some? =>
                                 Extraction(j, TypeNameFromString(returnNames[j]).value));
    return Some(Join(names, ", "));
  }

  // ---------------------------------------------------------------------------
  // Properties

  /** Text that survives the ", " split and the whitespace split intact: a
      token without commas. Go identifiers are plain. */
  predicate Plain(s: string) {
    Token(s) && ',' !in s
  }

  /** A sufficient condition for a type whose text is one token without a
      comma: identifiers, qualified names, pointers, slices, maps and inline
      interfaces built from plain names. Function types are left out (most of
      them render with spaces or ", "), and so are structs and unsupported
      nodes (whose text is empty). */
  predicate SimpleType(t: TypeExpr) {
    match t
    case Ident(name) => Plain(name)
    case Selector(pkg, sel) => Plain(pkg) && Plain(sel)
    case Star(elem) => SimpleType(elem)
    case Array(elem) => SimpleType(elem)
    case Map(key, value) => SimpleType(key) && SimpleType(value)
    case Interface(_) => true
    case _ => false
  }

  lemma PlainAppend(a: string, b: string)
    requires Plain(a) && Plain(b)
    ensures Plain(a + b)
  {
    assert forall i :: 0 <= i < |a + b| ==> (a + b)[i] == if i < |a| then a[i] else b[i - |a|];
  }

  /** A simple type renders as plain text. */
  lemma {:induction false} SimpleTypeIsPlain(t: TypeExpr)
    requires SimpleType(t)
    ensures Plain(TypeName(t))
  {
    match t
    case Ident(_) =>
    case Selector(pkg, sel) =>
      PlainAppend(pkg, ".");
      PlainAppend(pkg + ".", sel);
    case Star(elem) =>
      SimpleTypeIsPlain(elem);
    case Array(elem) =>
      SimpleTypeIsPlain(elem);
      PlainAppend("[]", TypeName(elem));
    case Map(key, value) =>
      SimpleTypeIsPlain(key);
      SimpleTypeIsPlain(value);
      PlainAppend("map[", TypeName(key));
      PlainAppend("map[" + TypeName(key), "]");
      PlainAppend("map[" + TypeName(key) + "]", TypeName(value));
    case Interface(_) =>
  }

  /** `k` pointer markers around `t`. */
  function Pointers(k: nat, t: TypeExpr): TypeExpr {
    if k == 0 then t else Star(Pointers(k - 1, t))
  }

  /** Any depth of pointer renders as the pointee's text. */
  lemma {:induction false} PointerErased(k: nat, t: TypeExpr)
    ensures TypeName(Pointers(k, t)) == TypeName(t)
  {
    if k > 0 {
      PointerErased(k - 1, t);
    }
  }

  /** A function type with both lists renders them inside one pair of
      parentheses, separated by ", ": results are not parenthesised apart. */
  lemma FuncTypeOneParenPair(p: FieldList, r: FieldList)
    ensures TypeName(Func(FuncType(Some(p), Some(r))))
         == "func" + ("(" + (Parameters(Some(p)) + ", " + Parameters(Some(r))) + ")")
  {
    JoinPair(Parameters(Some(p)), Parameters(Some(r)), ", ");
    assert [Parameters(Some(p))] + [Parameters(Some(r))] == [Parameters(Some(p)), Parameters(Some(r))];
  }

  /** A function type with both lists reads, inside its parentheses, like one
      flat list of the parameters followed by the results: cutting that text
      at ", " gives back every entry of both lists, in order, and nothing
      marks where the parameters end. */
  lemma FunctionSignatureEntries(p: FieldList, r: FieldList)
    requires |p.list| >= 1 && PlainFields(p.list)
    requires |r.list| >= 1 && PlainFields(r.list)
    ensures var text, entries := FunctionSignature(FuncType(Some(p), Some(r))),
                                 Rendered(Expand(Some(p))) + Rendered(Expand(Some(r)));
      && text == "(" + Join(entries, ", ") + ")"
      && Split(text[1..|text| - 1], ", ") == entries
  {
    var ps, rs := Expand(Some(p)), Expand(Some(r));
    SignatureOfTwoLists(p, r);
    PlainEntriesOfTwoLists(p, r);
    assert Rendered(ps + rs) == Rendered(ps) + Rendered(rs);
    SplitRendered(ps + rs);
    var inner := Join(Rendered(ps) + Rendered(rs), ", ");
    assert ("(" + inner + ")")[1..|inner| + 1] == inner;
  }

  lemma SignatureOfTwoLists(p: FieldList, r: FieldList)
    requires |p.list| >= 1 && |r.list| >= 1
    ensures FunctionSignature(FuncType(Some(p), Some(r)))
         == "(" + Join(Rendered(Expand(Some(p))) + Rendered(Expand(Some(r))), ", ") + ")"
  {
    ExpandFieldsOrder(p, |p.list|);
    ExpandFieldsOrder(r, |r.list|);
    JoinPair(Parameters(Some(p)), Parameters(Some(r)), ", ");
    assert [Parameters(Some(p))] + [Parameters(Some(r))] == [Parameters(Some(p)), Parameters(Some(r))];
    JoinAppend(Rendered(Expand(Some(p))), Rendered(Expand(Some(r))), ", ");
  }

  lemma PlainEntriesOfTwoLists(p: FieldList, r: FieldList)
    requires PlainFields(p.list) && PlainFields(r.list)
    ensures var es := Expand(Some(p)) + Expand(Some(r));
      forall i :: 0 <= i < |es| ==> PlainParam(es[i])
  {
    var ps, rs := Expand(Some(p)), Expand(Some(r));
    ExpandFieldsPlain(p, |p.list|);
    ExpandFieldsPlain(r, |r.list|);
    assert ps == ExpandFields(p, |p.list|) && rs == ExpandFields(r, |r.list|);
    forall i | 0 <= i < |ps + rs| ensures PlainParam((ps + rs)[i]) {
      if i < |ps| {
        assert (ps + rs)[i] == ps[i];
      } else {
        assert (ps + rs)[i] == rs[i - |ps|];
      }
    }
  }

  /** `func()` renders as one token without a comma, so a callback parameter
      of that type takes part in the round trips like any plain type. */
  lemma NoArgFuncIsPlain()
    ensures TypeName(Func(FuncType(Some(FieldList([])), None))) == "func()"
    ensures Plain(TypeName(Func(FuncType(Some(FieldList([])), None))))
  {
    ParamsOnlyFuncType(FieldList([]));
    assert Parameters(Some(FieldList([]))) == "";
    assert "func" + ("(" + "" + ")") == "func()";
  }

  /** A function type without results renders its parameter text alone in
      the parentheses. */
  lemma ParamsOnlyFuncType(p: FieldList)
    ensures TypeName(Func(FuncType(Some(p), None))) == "func" + ("(" + Parameters(Some(p)) + ")")
  {
    assert [Parameters(Some(p))] + [] == [Parameters(Some(p))];
  }

  /** A list of one named entry renders as "name type". */
  lemma SingleNamedParam(n: string, t: TypeExpr)
    ensures Parameters(Some(FieldList([Field([n], t)]))) == n + " " + TypeName(t)
  {
    var l := FieldList([Field([n], t)]);
    assert ExpandField(l.list[0]) == [Param(Some(n), TypeName(t))];
    assert ExpandFields(l, 1) == [] + [Param(Some(n), TypeName(t))];
  }

  /** A list of one unnamed entry renders as its type. */
  lemma SingleUnnamedParam(t: TypeExpr)
    ensures Parameters(Some(FieldList([Field([], t)]))) == TypeName(t)
  {
    var l := FieldList([Field([], t)]);
    assert ExpandFields(l, 1) == [] + [Param(None, TypeName(t))];
  }

  /** `func() t` renders as "func(, t)": the empty parameter list still
      contributes its (empty) text and a separator. */
  lemma NoParamFuncType(t: TypeExpr)
    ensures TypeName(Func(FuncType(Some(FieldList([])), Some(FieldList([Field([], t)])))))
         == "func" + ("(" + (", " + TypeName(t)) + ")")
  {
    var none, one := FieldList([]), FieldList([Field([], t)]);
    assert Parameters(Some(none)) == "";
    SingleUnnamedParam(t);
    FuncTypeOneParenPair(none, one);
    assert "" + ", " + TypeName(t) == ", " + TypeName(t);
  }

  /** The name an entry is forwarded under: its own name, or, unnamed, its type text. */
  function CallSiteNames(ps: seq<Param>): seq<string> {
    seq(|ps|, i requires 0 <= i < |ps| => match ps[i].name case Some(n) => n case None => ps[i].typ)
  }

  function ParamTypes(ps: seq<Param>): seq<string> {
    seq(|ps|, i requires 0 <= i < |ps| => ps[i].typ)
  }

  predicate PlainParam(p: Param) {
    (p.name.Some? ==> Plain(p.name.value)) && Plain(p.typ)
  }

  /** Plain entries are cut back apart exactly by the ", " split. */
  lemma SplitRendered(ps: seq<Param>)
    requires |ps| >= 1
    requires forall i :: 0 <= i < |ps| ==> PlainParam(ps[i])
    ensures Split(Join(Rendered(ps), ", "), ", ") == Rendered(ps)
  {
    var r := Rendered(ps);
    forall k | 0 <= k < |r| ensures ", "[0] !in r[k] {
      assert r[k] == RenderParam(ps[k]);
    }
    SplitJoin(r, ", ");
  }

  /** A plain entry splits into its name (if any) and its type. */
  lemma FieldsOfRenderedParam(p: Param)
    requires PlainParam(p)
    ensures Fields(RenderParam(p)) == if p.name.Some? then [p.name.value, p.typ] else [p.typ]
  {
    if p.name.Some? {
      FieldsOfPair(p.name.value, p.typ);
    } else {
      FieldsOfToken(p.typ);
    }
  }

  /** Forwarded argument names of plain entries are their call-site names. */
  lemma ArgumentNamesOfParams(ps: seq<Param>)
    requires |ps| >= 1
    requires forall i :: 0 <= i < |ps| ==> PlainParam(ps[i])
    ensures ArgumentNames(Join(Rendered(ps), ", ")) == Some(Join(CallSiteNames(ps), ", "))
  {
    SplitRendered(ps);
    var pieces := Rendered(ps);
    forall i | 0 <= i < |pieces|
      ensures Fields(pieces[i]) != [] && Fields(pieces[i])[0] == CallSiteNames(ps)[i]
    {
      FieldsOfRenderedParam(ps[i]);
    }
    assert seq(|pieces|, i requires 0 <= i < |pieces| && Fields(pieces[i]) != [] => Fields(pieces[i])[0])
        == CallSiteNames(ps);
  }

  /** Extractions of plain entries cast each to its declared type, at its position. */
  lemma ReturnNamesOfParams(ps: seq<Param>)
    requires |ps| >= 1
    requires forall i :: 0 <= i < |ps| ==> PlainParam(ps[i])
    ensures ReturnNames(Join(Rendered(ps), ", ")) == Some(Join(Extractions(ParamTypes(ps)), ", "))
  {
    SplitRendered(ps);
    var pieces := Rendered(ps);
    forall i | 0 <= i < |pieces|
      ensures TypeNameFromString(pieces[i]) == Some(ps[i].typ)
    {
      FieldsOfRenderedParam(ps[i]);
    }
    assert seq(|pieces|, i requires 0 <= i < |pieces| && TypeNameFromString(pieces[i]).Some? =>
                           Extraction(i, TypeNameFromString(pieces[i]).value))
        == Extractions(ParamTypes(ps));
  }

  /** The names a field list declares, in order. */
  function DeclaredNames(fs: seq<Field>): seq<string> {
    if |fs| == 0 then [] else DeclaredNames(fs[..|fs| - 1]) + fs[|fs| - 1].names
  }

  /** The type of every entry of a field list, in order: one per declared
      name, or one for a field without names. */
  function DeclaredTypes(fs: seq<Field>): seq<string> {
    if |fs| == 0 then []
    else
      var f := fs[|fs| - 1];
      var copies := if |f.names| == 0 then 1 else |f.names|;
      DeclaredTypes(fs[..|fs| - 1]) + seq(copies, _ => TypeName(f.typ))
  }

  /** A field list the generator handles as intended: every declared name and
      every type text is a single token without a comma. */
  predicate PlainFields(fs: seq<Field>) {
    forall k :: 0 <= k < |fs| ==>
      Plain(TypeName(fs[k].typ)) && forall j :: 0 <= j < |fs[k].names| ==> Plain(fs[k].names[j])
  }

  predicate AllNamed(fs: seq<Field>) {
    forall k :: 0 <= k < |fs| ==> |fs[k].names| > 0
  }

  /** Expansion of any field list keeps the declared types in order and, for
      named fields, the declared names in order, one entry per name. */
  lemma {:induction false} ExpandFieldsOrder(l: FieldList, n: nat)
    requires n <= |l.list|
    ensures var ps := ExpandFields(l, n);
      && |ps| >= n
      && ParamTypes(ps) == DeclaredTypes(l.list[..n])
      && (AllNamed(l.list) ==> CallSiteNames(ps) == DeclaredNames(l.list[..n]))
  {
    if n > 0 {
      ExpandFieldsOrder(l, n - 1);
      var f := l.list[n - 1];
      var a, b := ExpandFields(l, n - 1), ExpandField(f);
      assert l.list[..n][..n - 1] == l.list[..n - 1];
      assert ParamTypes(a + b) == ParamTypes(a) + ParamTypes(b);
      if AllNamed(l.list) {
        assert CallSiteNames(a + b) == CallSiteNames(a) + CallSiteNames(b);
        assert CallSiteNames(b) == f.names;
      }
    }
  }

  /** Expanding a list of plain fields yields only plain entries. */
  lemma {:induction false} ExpandFieldsPlain(l: FieldList, n: nat)
    requires n <= |l.list|
    requires PlainFields(l.list)
    ensures forall i :: 0 <= i < |ExpandFields(l, n)| ==> PlainParam(ExpandFields(l, n)[i])
  {
    if n > 0 {
      ExpandFieldsPlain(l, n - 1);
      var f := l.list[n - 1];
      assert Plain(TypeName(f.typ));
      var a, b := ExpandFields(l, n - 1), ExpandField(f);
      assert forall i :: 0 <= i < |b| ==> PlainParam(b[i]);
      assert ExpandFields(l, n) == a + b;
      forall i | 0 <= i < |a + b| ensures PlainParam((a + b)[i]) {
        if i < |a| {
          assert (a + b)[i] == a[i];
        } else {
          assert (a + b)[i] == b[i - |a|];
        }
      }
    }
  }

  /** Name round trip: for a non-empty list of named fields whose names
      and type texts are one token without a comma, getArgumentNames(getParameters(fl)) is the declared
      names joined by ", ", in order. */
  lemma ArgumentNamesRoundTrip(fl: FieldList)
    requires |fl.list| >= 1 && PlainFields(fl.list) && AllNamed(fl.list)
    ensures ArgumentNames(Parameters(Some(fl))) == Some(Join(DeclaredNames(fl.list), ", "))
  {
    ExpandFieldsOrder(fl, |fl.list|);
    ExpandFieldsPlain(fl, |fl.list|);
    assert fl.list[..|fl.list|] == fl.list;
    ArgumentNamesOfParams(Expand(Some(fl)));
  }

  /** Result round trip: for a non-empty list whose names (if any) and type
      texts are one token without a comma, getReturnNames(getParameters(fl)) has one extraction per
      declared result, indexed 0..n-1, cast to that result's type. */
  lemma ReturnNamesRoundTrip(fl: FieldList)
    requires |fl.list| >= 1 && PlainFields(fl.list)
    ensures ReturnNames(Parameters(Some(fl))) == Some(Join(Extractions(DeclaredTypes(fl.list)), ", "))
  {
    ExpandFieldsOrder(fl, |fl.list|);
    ExpandFieldsPlain(fl, |fl.list|);
    assert fl.list[..|fl.list|] == fl.list;
    ReturnNamesOfParams(Expand(Some(fl)));
  }

  /** An absent or empty list renders as "", which both re-splitting steps
      reject: a method without parameters or without results panics. */
  lemma {:induction false} EmptyListPanics(fl: Option<FieldList>)
    requires fl.None? || fl.value.list == []
    ensures Parameters(fl) == ""
    ensures ArgumentNames(Parameters(fl)) == None
    ensures ReturnNames(Parameters(fl)) == None
  {
    assert Split("", ", ") == [""];
    assert Fields("") == [];
  }

  /** An unnamed parameter is forwarded under its type text. */
  lemma UnnamedParamForwardsType(t: TypeExpr)
    requires Plain(TypeName(t))
    ensures ArgumentNames(Parameters(Some(FieldList([Field([], t)])))) == Some(TypeName(t))
  {
    var fl := FieldList([Field([], t)]);
    ExpandFieldsOrder(fl, 1);
    ExpandFieldsPlain(fl, 1);
    ArgumentNamesOfParams(Expand(Some(fl)));
  }

  /** An unnamed entry with empty type text among plain entries leaves an
      empty piece after the ", " split, on which both re-splitting steps
      panic. */
  lemma EmptyEntryPanics(ps: seq<Param>, k: nat)
    requires k < |ps| && ps[k] == Param(None, "")
    requires forall i :: 0 <= i < |ps| && i != k ==> PlainParam(ps[i])
    ensures ArgumentNames(Join(Rendered(ps), ", ")) == None
    ensures ReturnNames(Join(Rendered(ps), ", ")) == None
  {
    var r := Rendered(ps);
    forall j | 0 <= j < |r| ensures ", "[0] !in r[j] {
      assert r[j] == RenderParam(ps[j]);
    }
    SplitJoin(r, ", ");
    assert r[k] == "";
    assert Fields("") == [];
  }

  /** The entries of the first n fields do not depend on the fields after them. */
  lemma {:induction false} ExpandFieldsPrefix(l: FieldList, m: nat, n: nat)
    requires n <= m <= |l.list|
    ensures ExpandFields(l, n) == ExpandFields(FieldList(l.list[..m]), n)
  {
    if n > 0 {
      ExpandFieldsPrefix(l, m, n - 1);
    }
  }

  /** The entries of a list are those of the fields up to `k` followed by
      those of the fields after it. */
  lemma {:induction false} ExpandFieldsSplit(l: FieldList, k: nat, n: nat)
    requires k < n <= |l.list|
    ensures ExpandFields(l, n)
         == ExpandFields(l, k + 1) + ExpandFields(FieldList(l.list[k + 1..]), n - k - 1)
    decreases n
  {
    if n > k + 1 {
      ExpandFieldsSplit(l, k, n - 1);
      var tail := FieldList(l.list[k + 1..]);
      assert tail.list[n - k - 2] == l.list[n - 1];
      AppendAssociates(ExpandFields(l, k + 1), ExpandFields(tail, n - k - 2), ExpandField(l.list[n - 1]));
    }
  }

  /** An unnamed parameter or result whose type renders as "" (a channel,
      `...T`, a struct or another unsupported node), anywhere in a list whose
      other fields are plain, makes both re-splitting steps panic. */
  lemma EmptyTypeTextPanics(fl: FieldList, k: nat)
    requires k < |fl.list| && fl.list[k].names == [] && TypeName(fl.list[k].typ) == ""
    requires PlainFields(fl.list[..k]) && PlainFields(fl.list[k + 1..])
    ensures ArgumentNames(Parameters(Some(fl))) == None
    ensures ReturnNames(Parameters(Some(fl))) == None
  {
    var front, back := FieldList(fl.list[..k]), FieldList(fl.list[k + 1..]);
    var a, b := ExpandFields(fl, k), ExpandFields(back, |back.list|);
    ExpandFieldsSplit(fl, k, |fl.list|);
    ExpandFieldsPrefix(fl, k, k);
    ExpandFieldsPlain(front, k);
    ExpandFieldsPlain(back, |back.list|);
    var ps := a + [Param(None, "")] + b;
    assert Expand(Some(fl)) == ps;
    forall i | 0 <= i < |ps| && i != |a| ensures PlainParam(ps[i]) {
      if i < |a| {
        assert ps[i] == a[i];
      } else {
        assert ps[i] == b[i - |a| - 1];
      }
    }
    EmptyEntryPanics(ps, |a|);
  }

  /** A field declaring at most one name contributes its type once. */
  lemma SingleDeclaredType(h: Field)
    requires |h.names| <= 1
    ensures DeclaredTypes([h]) == [TypeName(h.typ)]
  {
    assert [h][..0] == [];
    assert seq(1, _ => TypeName(h.typ)) == [TypeName(h.typ)];
  }

  /** The first result is extracted as `args.Get(0).(t)`. */
  lemma FirstExtraction(t: string)
    ensures Extraction(0, t) == "args.Get(0).(" + t + ")"
  {
    assert Digit(0) == '0';
    assert NatToString(0) == "0";
  }

  /** A single result, named or not, is extracted at index 0 as its type. */
  lemma SingleResultExtraction(f: Field)
    requires |f.names| <= 1 && PlainFields([f])
    ensures ReturnNames(Parameters(Some(FieldList([f])))) == Some(Extraction(0, TypeName(f.typ)))
  {
    ReturnNamesRoundTrip(FieldList([f]));
    SingleDeclaredType(f);
    assert Extractions([TypeName(f.typ)]) == [Extraction(0, TypeName(f.typ))];
  }

  /** A named result and an unnamed one of the same type are extracted alike,
      and a qualified type is extracted whole (`args.Get(0).(foo.Bar)`). */
  lemma NamedResultExtractsLikeUnnamed(name: string, t: TypeExpr)
    requires Plain(name) && Plain(TypeName(t))
    ensures ReturnNames(Parameters(Some(FieldList([Field([name], t)]))))
         == ReturnNames(Parameters(Some(FieldList([Field([], t)]))))
         == Some("args.Get(0).(" + TypeName(t) + ")")
  {
    SingleResultExtraction(Field([name], t));
    SingleResultExtraction(Field([], t));
    FirstExtraction(TypeName(t));
  }
}

=== FILE: wrappers.dfy ===
/** An optional value. In this model `None` stands for a Go runtime panic
    (an index out of range or a failed type assertion) that aborts generation. */
module Wrappers {
  datatype Option<+T> = None | Some(value: T)

  /** `f` applied to every element in order, the results collected; a panic
      on any element panics the whole run. Both loops of the generator that
      append one result per element (over an interface's methods, over the
      interfaces found) have this shape. */
  function MapAll<A, B>(xs: seq<A>, f: A -> Option<B>): (r: Option<seq<B>>)
    ensures r.Some? ==> |r.value| == |xs|
  {
    if |xs| == 0 then Some([])
    else match MapAll(xs[..|xs| - 1], f)
      case None => None
      case Some(ys) =>
        match f(xs[|xs| - 1])
        case None => None
        case Some(y) => Some(ys + [y])
  }

  /** The run panics exactly when some element panics. */
  lemma {:induction false} MapAllPanics<A, B>(xs: seq<A>, f: A -> Option<B>)
    ensures MapAll(xs, f).None? <==> exists i :: 0 <= i < |xs| && f(xs[i]).None?
  {
    if |xs| > 0 {
      var init := xs[..|xs| - 1];
      MapAllPanics(init, f);
      if MapAll(init, f).None? {
        var j :| 0 <= j < |init| && f(init[j]).None?;
        assert xs[j] == init[j];
      }
      if i :| 0 <= i < |init| && f(xs[i]).None? {
        assert xs[i] == init[i];
      }
    }
  }

  /** The i-th result is the i-th element's. */
  lemma {:induction false} MapAllAt<A, B>(xs: seq<A>, f: A -> Option<B>, i: nat)
    requires i < |xs| && MapAll(xs, f).Some?
    ensures f(xs[i]) == Some(MapAll(xs, f).value[i])
  {
    if i < |xs| - 1 {
      var init := xs[..|xs| - 1];
      MapAllAt(init, f, i);
      assert xs[i] == init[i];
    }
  }

  /** Once an element has panicked, what follows does not matter. */
  lemma {:induction false} MapAllPrefixPanics<A, B>(a: seq<A>, b: seq<A>, f: A -> Option<B>)
    requires MapAll(a, f) == None
    ensures MapAll(a + b, f) == None
    decreases |b|
  {
    if |b| == 0 {
      assert a + b == a;
    } else {
      var b' := b[..|b| - 1];
      assert (a + b)[..|a + b| - 1] == a + b';
      MapAllPrefixPanics(a, b', f);
    }
  }

  /** One more element that does not panic adds its result at the end. */
  lemma MapAllSnoc<A, B>(xs: seq<A>, x: A, f: A -> Option<B>)
    ensures MapAll(xs + [x], f) == match (MapAll(xs, f), f(x))
      case (Some(ys), Some(y)) => Some(ys + [y])
      case _ => None
  {
    assert (xs + [x])[..|xs|] == xs;
  }

  /** A single element maps to its own result. */
  lemma MapAllOne<A, B>(x: A, f: A -> Option<B>)
    ensures MapAll([x], f) == match f(x)
      case None => None
      case Some(y) => Some([y])
  {
    assert [x][..0] == [];
    assert [] + [x] == [x];
    if f(x).Some? {
      assert [] + [f(x).value] == [f(x).value];
    }
  }

  /** Two elements that do not panic map to their two results, in order. */
  lemma MapAllTwo<A, B>(x1: A, x2: A, f: A -> Option<B>)
    requires f(x1).Some? && f(x2).Some?
    ensures MapAll([x1, x2], f) == Some([f(x1).value, f(x2).value])
  {
    MapAllOne(x1, f);
    assert [x1, x2][..1] == [x1];
    assert [f(x1).value] + [f(x2).value] == [f(x1).value, f(x2).value];
  }

  /** The results of `f` on every element, concatenated in order. The
      generator's walk (targets per declaration, per spec, per field) and
      its template (text per mock, per method) both have this shape. */
  function FlatMap<A, B>(xs: seq<A>, f: A -> seq<B>): seq<B> {
    if |xs| == 0 then [] else FlatMap(xs[..|xs| - 1], f) + f(xs[|xs| - 1])
  }

  /** Concatenated inputs give concatenated outputs, in the same order. */
  lemma {:induction false} FlatMapAppend<A, B>(a: seq<A>, b: seq<A>, f: A -> seq<B>)
    ensures FlatMap(a + b, f) == FlatMap(a, f) + FlatMap(b, f)
    decreases |b|
  {
    if |b| == 0 {
      assert a + b == a;
    } else {
      var b' := b[..|b| - 1];
      assert (a + b)[..|a + b| - 1] == a + b';
      FlatMapAppend(a, b', f);
    }
  }

  /** The output is empty exactly when every element gives nothing. */
  lemma {:induction false} FlatMapEmpty<A, B>(xs: seq<A>, f: A -> seq<B>)
    ensures FlatMap(xs, f) == [] <==> forall i :: 0 <= i < |xs| ==> f(xs[i]) == []
  {
    if |xs| > 0 {
      var init := xs[..|xs| - 1];
      FlatMapEmpty(init, f);
      assert forall i :: 0 <= i < |init| ==> init[i] == xs[i];
    }
  }

  /** Every result of every element occurs in the output. */
  lemma {:induction false} FlatMapHas<A, B>(xs: seq<A>, i: nat, f: A -> seq<B>, y: B)
    requires i < |xs| && y in f(xs[i])
    ensures y in FlatMap(xs, f)
  {
    if i < |xs| - 1 {
      assert xs[..|xs| - 1][i] == xs[i];
      FlatMapHas(xs[..|xs| - 1], i, f, y);
    }
  }

  /** The output of a single element is its own result. */
  lemma FlatMapOne<A, B>(x: A, f: A -> seq<B>)
    ensures FlatMap([x], f) == f(x)
  {
    assert [x][..0] == [];
    assert [] + f(x) == f(x);
  }

  /** The bookkeeping of a loop that consumes `xs` one element at a time
      after an earlier output `found`: at step k, element k adds its result
      to what the first k gave, and the first k+1 followed by the rest give
      the whole. */
  lemma FlatMapStep<A, B>(xs: seq<A>, k: nat, f: A -> seq<B>, found: seq<B>)
    requires k < |xs|
    ensures found + FlatMap(xs[..k + 1], f) == (found + FlatMap(xs[..k], f)) + f(xs[k])
    ensures found + FlatMap(xs, f) == (found + FlatMap(xs[..k + 1], f)) + FlatMap(xs[k + 1..], f)
  {
    FlatMapGrow(xs, k, f, found);
    FlatMapSplit(xs, k + 1, f, found);
  }

  lemma FlatMapGrow<A, B>(xs: seq<A>, k: nat, f: A -> seq<B>, found: seq<B>)
    requires k < |xs|
    ensures found + FlatMap(xs[..k + 1], f) == (found + FlatMap(xs[..k], f)) + f(xs[k])
  {
    var upto := xs[..k + 1];
    assert upto[..k] == xs[..k];
    AppendAssociates(found, FlatMap(xs[..k], f), f(xs[k]));
  }

  lemma FlatMapSplit<A, B>(xs: seq<A>, k: nat, f: A -> seq<B>, found: seq<B>)
    requires k <= |xs|
    ensures found + FlatMap(xs, f) == (found + FlatMap(xs[..k], f)) + FlatMap(xs[k..], f)
  {
    assert xs[..k] + xs[k..] == xs;
    FlatMapAppend(xs[..k], xs[k..], f);
    AppendAssociates(found, FlatMap(xs[..k], f), FlatMap(xs[k..], f));
  }

  /** Concatenation of sequences is associative. */
  lemma AppendAssociates<T>(a: seq<T>, b: seq<T>, c: seq<T>)
    ensures a + (b + c) == (a + b) + c
  {
  }
}
